=== FILE: README.md ===
# Streamline video generation, modelled in Dafny

Streamline turns a written script into a narrated video. `generate_video`
takes an uploaded voice-over or synthesises one with Edge TTS. It splits the
script into sentences and gives each sentence a share of the narration time
in proportion to its length. For each sentence it picks a visual: stock
footage from Pexels or Pixabay, then an AI-generated image, then a dark
placeholder. Each visual is scaled to cover the frame and centre-cropped,
and gets a caption styled by a Gemini model. The scenes are concatenated,
optional background music is mixed in, and the result is encoded with a
hardware codec when one is detected, falling back to libx264. The
`finally` block removes the audio temporary files.

This project models that core as pure functions over immutable data:

- `wrappers.dfy` (`Option`, `Result`) and `seqs.dfy` (two sequence facts).
- `text.dfy`: Python's `in`, `str.strip()`, `str.replace(p, "")` and
  ASCII `str.lower()`.
- `segmenter.dfy`: `re.split(r'(?<=[.!?]) +', …)`, the stripping and
  filtering of the fragments, and the character-share durations.
- `styling.dfy`: `get_smart_styling` with its model ladder, fence cleaning,
  font map and defaults, and the endpoint sanitising rule.
- `captions.dfy`: the 40-character wrapping and the caption anchor.
- `geometry.dfy`: the target frame, the cover-and-centre-crop, and the
  loop-or-trim fit.
- `sourcing.dfy`: the Pexels and Pixabay URL extraction, `random.shuffle`,
  and the stock → AI image → placeholder ladder.
- `encoder.dfy`: `get_hardware_device`, codec selection, and the two
  encode blocks as written.
- `pipeline.dfy`: `generate_video` itself, the voice map, music mixing,
  and the `finally` cleanup, both as written and as intended.

Every external effect is an oracle input: speech synthesis, HTTP, decoding
media, keyword extraction, Gemini replies, `json.loads`, the random
generator, `torch`/`wmic`/`ffmpeg` probes and each `write_videofile` call.
The `Env` and `SceneEnv` datatypes carry what each of those returned, so
every lemma holds for all possible behaviours of the outside world.

## Model

| member | source | states |
|---|---|---|
| Text.Strip | backend/main_logic.py:249 | The result is a slice of the input that neither starts nor ends with whitespace; only whitespace (Python's `isspace` set) was removed on either side; it is empty exactly when the input is all whitespace |
| Text.StripStripped | backend/main_logic.py:249 | Stripping a string with no surrounding whitespace returns it unchanged, so stripping is idempotent |
| Text.StripKeepsAbsence | backend/main_logic.py:72 | Stripping can never create an occurrence of a pattern that was absent |
| Text.RemoveFencesLeadTicks | backend/main_logic.py:72 | Deleting "```" left to right leaves a leading run of k backticks with k mod 3 of them |
| Text.RemoveFencesComplete | backend/main_logic.py:72 | After `replace("```", "")` the text contains no code fence, whatever it was |
| Segmenter.FirstSplit | backend/main_logic.py:248 | Returns the least position where the pattern matches (a space right after `.`, `!` or `?`), or the length when there is none |
| Segmenter.SpaceRun | backend/main_logic.py:248 | The greedy ` +`: everything consumed is a space and the next character is not |
| Segmenter.Split | backend/main_logic.py:248 | Gluing the fragments and consumed separators back gives the script; every separator but the last is a non-empty run of spaces after a terminator, and no fragment contains an unsplit match |
| Segmenter.KeptFrom | backend/main_logic.py:249 | Picks, in increasing order, exactly the fragments that are not all whitespace |
| Segmenter.Sentences | backend/main_logic.py:247-249 | Every sentence is non-empty and has no surrounding whitespace |
| Segmenter.SentencesInScriptOrder | backend/main_logic.py:248-249 | Each sentence is the strip of a split fragment, the fragments used appear in script order, and every fragment skipped is blank |
| Segmenter.BlankScriptHasNoSentence | backend/main_logic.py:249 | A script of whitespace only (or empty) yields no sentence |
| Segmenter.SentencesOfPair | backend/main_logic.py:248-249 | A split into two clean fragments yields exactly those two sentences |
| Segmenter.TwoSentenceScript | backend/main_logic.py:247-249 | "A cat sleeps. A dog runs." yields the two sentences "A cat sleeps." and "A dog runs.", in order |
| Segmenter.Durations | backend/main_logic.py:254-260 | One duration per sentence, each its length over the total length times the narration duration |
| Segmenter.DurationShare | backend/main_logic.py:254-260 | Each sentence's duration is its length over the total length, times the narration duration |
| Segmenter.DurationsSum | backend/main_logic.py:254-260 | The durations add up to exactly the narration duration |
| Segmenter.DurationsNonNegative | backend/main_logic.py:260 | No duration is negative when the narration duration is not |
| Styling.FirstAnswer | backend/main_logic.py:58-65 | The index of the first model whose call returned a truthy response; every earlier model raised or answered falsy |
| Styling.CleanFences | backend/main_logic.py:72 | The cleaned reply contains no code fence and has no surrounding whitespace; a reply without backticks is only stripped |
| Styling.FencedReply | backend/main_logic.py:72 | A reply wrapped as "```json" + body + "```", with no backtick in the body, cleans to the stripped body |
| Styling.FontFor | backend/main_logic.py:76-81 | A chosen font is always one of the font table's values |
| Styling.FontForMood | backend/main_logic.py:76-81 | A missing mood (looked up as "bold"), "bold", unknown or non-string scalar moods give Arial; "playful" gives Comic Sans MS; "elegant" gives Georgia; a list or object mood is unhashable, so no font is found and the lookup raises |
| Styling.SmartStyling | backend/main_logic.py:20-86 | The default is used for the "no key" reason exactly when the key is empty; with a key, a raising `configure` gives the default for the failure reason; a derived style always has a `font` entry taken from the font table |
| Styling.SilentModelsGiveDefault | backend/main_logic.py:58-68 | When every model raises or answers falsy, the gold, centred Arial default is returned |
| Styling.DerivedStyle | backend/main_logic.py:70-83 | A derived style is the model's JSON object parsed from the fence-free reply, with `font` set from the mood and every other key kept |
| Styling.StyleFromReply | backend/main_logic.py:58-83 | Conversely, when the first answering model's reply has text that parses, once cleaned, to an object with a findable font, that object with `font` set is the style returned |
| Styling.UnusableReplyDefaults | backend/main_logic.py:58-86 | When the first answering model's reply has no text, does not parse to an object, or has an unhashable mood, the gold, centred Arial default is returned |
| Styling.SanitizeEndpoint | backend/main_logic.py:36-39 | An endpoint that names both googleapis.com and a `/models/` path is cut to `scheme://netloc` of its parse; any other endpoint is kept unchanged |
| Styling.SanitizeIdempotent | backend/main_logic.py:316-322 | Sanitising an already sanitised endpoint changes nothing, since `scheme://netloc` never contains "/models/" |
| Captions.Chunks | backend/main_logic.py:364 | ceil(len / 40) chunks, each of 1 to 40 characters, all but the last exactly 40, concatenating back to the sentence |
| Captions.Wrap | backend/main_logic.py:364 | A sentence of at most 40 characters is shown as it is; a longer one shows its first 40 characters followed by a line break |
| Captions.ChunkInside | backend/main_logic.py:364 | Chunk k is the slice of the sentence starting at 40·k |
| Captions.JoinThenSplit | backend/main_logic.py:364 | Splitting newline-joined lines at the newlines gives back the lines |
| Captions.JoinThenDrop | backend/main_logic.py:364 | Deleting the inserted newlines from joined lines gives their concatenation |
| Captions.JoinAddsOnlyNewlines | backend/main_logic.py:364 | For any lines, newlines included, joining them with newlines and deleting all newlines equals deleting the newlines from their concatenation |
| Captions.WrapKeepsText | backend/main_logic.py:364 | For every sentence, wrapping inserts only newlines: with all newlines deleted, the wrapped caption and the sentence are equal |
| Captions.WrapLayout | backend/main_logic.py:364 | For a sentence without its own newline, the wrapped caption shows ceil(len / 40) lines of 1 to 40 characters, and removing the inserted newlines gives back the sentence |
| Captions.AnchorFor | backend/main_logic.py:386-393 | The caption is at the bottom exactly when position is "bottom", at the top exactly when it is "top", and centred otherwise |
| Captions.ColorOf | backend/main_logic.py:376 | A style's colour is passed through when present; a style without one gives the gold default |
| Captions.DefaultStyleCaption | backend/main_logic.py:25-30 | The default style places a gold caption in the centre |
| Geometry.TargetSize | backend/main_logic.py:222-226 | 1080x1920 exactly for "9:16", 1920x1080 for every other ratio; both positive |
| Geometry.ResizeToHeight | backend/main_logic.py:287 | The new height is the one asked for and the aspect ratio is kept |
| Geometry.ResizeToWidth | backend/main_logic.py:289 | The new width is the one asked for and the aspect ratio is kept |
| Geometry.CoverCropFits | backend/main_logic.py:284-296 | The output is the target size, the crop window lies inside the resized frame and is centred horizontally, and the resized frame keeps the source aspect |
| Geometry.FitTo | backend/main_logic.py:298-302 | A clip is looped exactly when it is shorter than the scene, and trimmed otherwise |
| Sourcing.Widest | backend/main_logic.py:174-175 | The file picked by the stable descending sort on width: no file is wider, and no earlier file is as wide |
| Sourcing.PexelsPick | backend/main_logic.py:171-176 | Fails (the KeyError is caught into `[]`) exactly when a picked file has no link; otherwise one URL per video with files, each the link of a widest file |
| Sourcing.LargePreferred | backend/main_logic.py:193-196 | A hit with a `large` rendition never uses `medium` |
| Sourcing.HitPick | backend/main_logic.py:193-196 | A hit contributes nothing exactly when it has neither rendition; otherwise the `large` rendition when present, else `medium`, gives its URL or, when that URL is missing, the KeyError |
| Sourcing.PixabayPick | backend/main_logic.py:191-196 | Fails exactly when a chosen rendition has no URL; otherwise every URL comes from some hit's chosen rendition, at most one per hit |
| Sourcing.PexelsPickInOrder | backend/main_logic.py:171-176 | The URLs are, in response order, the widest file's link of exactly the videos that have files, one each |
| Sourcing.PixabayPickInOrder | backend/main_logic.py:191-196 | The URLs are, in response order, the chosen rendition's URL of exactly the hits with a `large` or `medium` rendition, one each |
| Sourcing.PexelsPickFrom | backend/main_logic.py:171-176 | From video i on, the URLs are the links of exactly the later videos with files, in order |
| Sourcing.PixabayPickFrom | backend/main_logic.py:191-196 | From hit i on, the URLs are those of exactly the later hits with a rendition, in order |
| Sourcing.PexelsUrls | backend/main_logic.py:160-179 | No key or a failed request gives no URL; a picked file without a link gives none; otherwise the list is exactly the picked links, one per video with files |
| Sourcing.PixabayUrls | backend/main_logic.py:181-200 | No key or a failed request gives no URL; a chosen rendition without a URL gives none; otherwise the list is exactly the picked rendition URLs |
| Sourcing.Candidates | backend/main_logic.py:264-271 | Pexels URLs come first and Pixabay URLs after them; a missing key contributes nothing, so with one key only that source's URLs are candidates, and with neither there are none |
| Sourcing.Shuffle | backend/main_logic.py:273 | The shuffled list is a permutation of the candidates |
| Sourcing.FirstUsable | backend/main_logic.py:278-305 | The first candidate that downloads and decodes; all earlier ones failed |
| Sourcing.StockFoundAnyOrder | backend/main_logic.py:273-305 | Whether some stock clip is used does not depend on the shuffle |
| Sourcing.ImagePrompt | backend/main_logic.py:312-341 | A prompt exists exactly when a Gemini key is set, `configure` does not raise and the first answering model's reply has text; it is that text stripped |
| Sourcing.AiStep | backend/main_logic.py:340-352 | An AI clip exists exactly when there is a prompt and its image decodes at a positive size; it shows that prompt's image cover-cropped to the target, at the target size for the scene duration |
| Sourcing.Resolve | backend/main_logic.py:275-359 | Whatever the ladder picks is at the target size and lasts the scene duration |
| Sourcing.LadderOrder | backend/main_logic.py:309-359 | Stock is used exactly when some candidate works, and it is the first that does; the AI image only when none works and a key is set; the (20, 20, 30) placeholder exactly when both steps fail |
| Sourcing.ShuffledLadder | backend/main_logic.py:273-359 | After the shuffle, stock is used exactly when some unshuffled candidate works, and it is a working candidate; otherwise the AI image exactly when that step succeeds, else the dark placeholder |
| Sourcing.StockClipShape | backend/main_logic.py:281-302 | A chosen stock clip is cropped inside its resized frame to the target size, and is looped exactly when shorter than the scene |
| Sourcing.NoKeysPlaceholder | backend/main_logic.py:264-359 | With no keys at all the scene is the placeholder at the target size for the scene duration |
| Encoder.DeviceName | backend/main_logic.py:103-126 | The device is one of the five names the probe can report |
| Encoder.DevicePriority | backend/main_logic.py:103-126 | Each device class is reported exactly when its test holds and every earlier test failed; a probe that raised reports CPU |
| Encoder.SelectProfile | backend/main_logic.py:448-475 | One of the three hardware codecs or libx264; each hardware codec carries the pixel format then its own parameters and no preset; libx264 is the ultrafast software profile, which is also the choice when no encoder listing was obtained |
| Encoder.SelectionRule | backend/main_logic.py:455-475 | NVENC is chosen exactly when "NVIDIA" is in the device name and h264_nvenc is listed; AMF exactly when that fails, "AMD" is in the name and h264_amf is listed; QSV exactly when both fail, "Intel" is in the name and h264_qsv is listed; each with its own parameter list and no preset; otherwise libx264/ultrafast |
| Encoder.NoEncoderMeansSoftware | backend/main_logic.py:447-475 | With no encoder listing, or a CPU device, the software profile is chosen |
| Encoder.Block | backend/main_logic.py:477-507 | The main write comes first; the fallback libx264/ultrafast write is made exactly when the main write raises; the block succeeds when either write does |
| Encoder.EncodeAsWritten | backend/main_logic.py:477-533 | One to four writes starting with the first block's main write; a failed first block ends the job with its own attempts; a successful job passed the first block and made the second block's preset-less write |
| Encoder.EncodeAttempts | backend/main_logic.py:477-533 | One to four writes, all at 24 fps with AAC audio, each a main or fallback write; the job fails exactly when both writes of some block raise |
| Encoder.CleanRunWritesTwice | backend/main_logic.py:477-533 | When nothing raises, the file is written twice: with the selected preset, then again without one |
| Encoder.SecondBlockFailureFailsJob | backend/main_logic.py:477-533 | When the first block's write succeeds but the second block's preset-less write and its fallback both raise, the job fails after three writes |
| Encoder.HardwareFailureRecovered | backend/main_logic.py:496-533 | A hardware write that raises is retried once in software, then the second block writes again |
| Pipeline.VoiceFor | backend/main_logic.py:135-146 | Friendly names map through the voice table, any other non-empty name is used as given, an empty name gives en-US-AriaNeural, and the result is never empty |
| Pipeline.VoiceIdempotent | backend/main_logic.py:143-146 | Resolving a resolved voice changes nothing |
| Pipeline.FontSize | backend/main_logic.py:377 | 80 points exactly for "16:9", 60 for every other ratio |
| Pipeline.CaptionFor | backend/main_logic.py:362-398 | A caption exists exactly when `TextClip` does not raise; it shows the wrapped sentence at the aspect's font size, 200 narrower than the frame; without a Gemini key it is gold and centred |
| Pipeline.KeyedCaption | backend/main_logic.py:369-393 | With a derived style, the caption takes the style's colour (gold when absent) and is at the bottom or top exactly when the style's position says so, with the aspect's font size and the frame width less 200 |
| Pipeline.ReplyCaption | backend/main_logic.py:58-83 | When the first answering model's reply parses to an object with a findable font, the caption's colour and position are that object's `color` and `position` |
| Pipeline.NarrationOf | backend/main_logic.py:232-238 | An uploaded voice-over is used whenever one is given; otherwise speech is synthesised with the resolved voice, and narration is missing exactly when there is no upload and synthesis raises |
| Pipeline.ProcessScene | backend/main_logic.py:259-400 | A scene raises exactly when keyword extraction raises; otherwise its visual is at the target size for the scene duration (which visual and which caption: Pipeline.SceneLadder) |
| Pipeline.SceneLadder | backend/main_logic.py:262-398 | A scene whose keyword extraction does not raise uses stock exactly when one of its candidates works, else the AI image when that step succeeds, else the dark placeholder; it has a caption exactly when `TextClip` does not raise, showing the wrapped sentence |
| Pipeline.Scenes | backend/main_logic.py:256-401 | The loop fails only through keyword extraction, and otherwise yields one scene per sentence |
| Pipeline.SceneAt | backend/main_logic.py:256-401 | Scene i of a completed loop is the loop body on sentence i with scene i's oracles |
| Pipeline.SceneSuffix | backend/main_logic.py:256-401 | Scene i of the loop from scene k is the first scene of the loop from scene k + i on the remaining sentences |
| Pipeline.SceneHead | backend/main_logic.py:259-400 | The first scene of a completed loop is the loop body on the first sentence |
| Pipeline.ScenesFollowLadder | backend/main_logic.py:256-401 | Every scene of a completed loop follows the stock, AI, placeholder ladder and the caption rule on its own sentence and oracles |
| Pipeline.ScenesShape | backend/main_logic.py:259-401 | Scene i has the target size and lasts the i-th duration |
| Pipeline.ScenesComplete | backend/main_logic.py:259-401 | When no keyword extraction raises, the loop completes |
| Pipeline.ScenesWithoutKeys | backend/main_logic.py:264-393 | Without keys every scene is the placeholder and every caption is gold and centred |
| Pipeline.MixMusic | backend/main_logic.py:408-434 | Music is mixed exactly when bytes were given and decode; it keeps the volume and is looped exactly when shorter than the narration |
| Pipeline.Finish | backend/main_logic.py:408-535 | The music path is bound; the narration file, plus the music file when music bytes were given, were created; the job fails exactly when the encoding fails; otherwise it carries the narration, the scenes and the narration duration, music is mixed exactly when bytes were given and decode (looped exactly when shorter than the narration, at the requested volume), the profile is the one selected from the probe and listing, and the writes are those the encoding made |
| Pipeline.Timeline | backend/main_logic.py:247-406 | One scene per sentence, each at the target size for its share; no sentence means the concatenation raises; otherwise it is the scene loop's result, so a keyword failure passes through unchanged |
| Pipeline.RunBody | backend/main_logic.py:230-535 | A failed synthesis creates nothing; the music path is bound exactly when narration, decoding and the scene loop all succeed; before that only the narration file exists; undecodable narration reports the decoding failure and a failed scene loop reports its own error |
| Pipeline.Cleanup | backend/main_logic.py:542-553 | The intended cleanup removes exactly the created audio files and keeps the body's result |
| Pipeline.CleanupAsWritten | backend/main_logic.py:542-553 | As written, the created audio files are removed, but when the music path was never bound the result becomes the unbound-name error |
| Pipeline.GenerateVideo | backend/main_logic.py:215-553 | The corrected job reports exactly the body's result, never the unbound-name error, and removes exactly the audio files the body created |
| Pipeline.GenerateVideoAsWritten | backend/main_logic.py:215-553 | As written, the job removes the same files; it reports the unbound-name error exactly when the body left before binding the music path, and otherwise agrees with the corrected job |
| Pipeline.TimelineMatchesNarration | backend/main_logic.py:254-406 | A produced video has one scene per sentence at the target size, each lasting its share, and the shares add up to the narration duration |
| Pipeline.NoKeysAllPlaceholders | backend/main_logic.py:259-400 | Without keys a produced video is all placeholders with gold, centred captions |
| Pipeline.CleanupOnEveryPath | backend/main_logic.py:228-553 | The narration file is removed exactly when narration was obtained; the music file only when music bytes were given, and always then once the music block ran |
| Pipeline.EncodingFailureNeedsBothWrites | backend/main_logic.py:477-533 | A job that fails in encoding ran an encode sequence that did not succeed, which by `Encoder.EncodeAttempts` means both writes of some block raised |
| Pipeline.ProducedUnlessEncodingFails | backend/main_logic.py:230-535 | With narration, a decodable duration, sentences, and keywords for every scene, a video is produced exactly when the encoding succeeds |
| Pipeline.TwoScenesProduced | backend/main_logic.py:230-535 | A two-sentence synthesised job with keywords and successful writes produces a video |
| Pipeline.TwoPlaceholderScenes | backend/main_logic.py:222-553 | Such a landscape job without keys or music yields two 1920x1080 placeholder scenes filling the narration, and removes only the narration file |
| Pipeline.LandscapePlaceholders | backend/main_logic.py:222-359 | A produced 16:9 job without keys shows only dark placeholders at 1920x1080 |
| Pipeline.NoMusicCleanup | backend/main_logic.py:542-553 | A produced job without music removes only the narration file |
| Pipeline.CatAndDogScenario | backend/main_logic.py:247-359 | "A cat sleeps. A dog runs." without keys gives exactly two placeholder scenes |
| Pipeline.TtsFailureMasked | backend/main_logic.py:410 | As written, a failed speech synthesis surfaces as the unbound music-path error; the corrected job reports the synthesis failure |
| Pipeline.EarlyErrorsMasked | backend/main_logic.py:539-553 | The written cleanup differs from the intended one exactly for failures before the music block; the intended one always reports the body's own error |

## Left out

- Keyword extraction (`get_keywords`, YAKE): only whether it raises is modelled. The search query it builds matters only to the HTTP oracles.
- HTTP requests, JSON decoding of API responses, `download_file` and the Pollinations URL with its random seed: each becomes an oracle result. A request that raises is a `None` response.
- Gemini configuration and calls are oracles. The sanitised endpoint is stored back into the parameter and reused by later scenes; `Styling.SanitizeIdempotent` shows that re-sanitising changes nothing, so the endpoint itself is not threaded through the scenes.
- moviepy rendering, pixel rounding, `CompositeVideoClip`, `with_duration` and audio mixing signal processing: sizes and durations are exact reals. The music volume is recorded, not applied.
- Floating point: durations are computed in exact real arithmetic, so `Segmenter.DurationsSum` is exact where Python's sum can be off by rounding.
- `concatenate_videoclips([])` is taken to raise; moviepy is not part of this model.
- `asyncio`, threads, logging and `print`. The device probe at line 219 only feeds a message and is left out.
- Temporary files other than the narration and music files (the TTS file when `communicate.save` raises, downloaded clips and images, the output file): the source never removes them, and they are not tracked.
- File removal in `finally` is taken to succeed; its errors are swallowed in the source anyway.
- The `9:16` and landscape resize branches (lines 285-296) are identical and are modelled once.
- The two encode blocks are modelled as written. The second block writes the same output again without the `preset` keyword. Besides the wasted work, this can fail a job whose first write succeeded (`Encoder.SecondBlockFailureFailsJob`); the model keeps that behaviour and does not correct it.
- The style's `font` entry is computed but never reaches `TextClip`, whose font is a fixed path; captions carry only colour, anchor, size and width.
- JSON values other than strings, lists and objects are kept abstract; only their hashability matters to the font lookup.
- `competitor_url` is unused by the source and absent from the model.
- Text.Lower: only ASCII letters are lowered, where Python lowers every Unicode letter. A non-ASCII letter whose lower case is ASCII (the Kelvin sign, for one) is not folded.
- Text.RemoveAll: its contract gives only a length bound. Its meaning is stated for the fence pattern by `Text.RemoveFencesLeadTicks` and `Text.RemoveFencesComplete`.
- Segmenter.Split: the contract states that the pieces are a valid split that glues back to the script. It does not prove that this split is the only one.
- Sourcing.PexelsPick: its own contract gives the count and the provenance of each URL; the exact list, in order, is stated by Sourcing.PexelsPickInOrder.
- Sourcing.PixabayPick: its own contract gives the provenance of each URL and bounds their number; the exact list, in order, is stated by Sourcing.PixabayPickInOrder.
- Sourcing.StockFoundAnyOrder and Sourcing.FirstUsable: the download-and-decode outcome is a fixed function of the URL, so a URL that fails once fails at every position. Real downloads may fail intermittently.
- Captions.WrapLayout: holds only for sentences without a newline of their own. The sentence split cuts only at spaces, so a sentence may contain "\n"; for those, `Captions.WrapKeepsText` still shows that wrapping adds nothing but newlines, but the line count is not stated.
- Geometry.CoverCropFits: assumes that `cropped(x1=…, width=…, height=…)` at lines 290, 296 and 351 gives a window of the target height taken from the top. Those calls pass no `y1` or `y2`. If moviepy applies `height` only together with one of them, the crop keeps the whole resized height. That height exceeds the target whenever the source is narrower than the frame's aspect: a 1080x1920 clip in a "16:9" job would come out 1920x3413. moviepy is not part of this model, so this is not checked; `Sourcing.StockClipShape` and `Sourcing.AiStep` rest on the same assumption.
- Geometry.FitTo: assumes that `clip.loop(duration=…)` at line 300 loops the clip. The file otherwise uses moviepy's 2.x interface (the import at line 14, `with_effects`, `subclipped`). If that version has no `loop` method, a short stock clip raises instead. The handler at line 305 then skips it and the next candidate is tried, where the model loops it; `Sourcing.StockClipShape` rests on the same assumption.
- Pipeline.MixMusic: assumes that `afx.audio_loop` at line 422 exists. If the installed moviepy names it differently, music shorter than the narration raises instead. The handler at line 433 then drops the music, where the model loops it.
- Sourcing.Shuffle: states that the result is a permutation; the generator's distribution is not modelled.

## Findings

| source | as written | input that shows it | evidently intended | confidence | as-written member | corrected member |
|---|---|---|---|---|---|---|
| backend/main_logic.py:410 | `bg_music_path` is first bound inside the `try`, after the scene loop, but the `finally` block reads it on every path | no voice-over and speech synthesis raises (or the narration does not decode, a keyword extraction raises, or the script has no sentence): `finally` raises `UnboundLocalError`, which replaces the real error | bind `bg_music_path = None` before the `try`, next to `audio_path`, so the body's own error propagates | high, not executed | Pipeline.CleanupAsWritten; Pipeline.TtsFailureMasked | Pipeline.Cleanup; Pipeline.EarlyErrorsMasked |

=== FILE: captions.dfy ===
/** Caption layout in `generate_video`: hard wrapping of a sentence into
    40-character lines and the mapping of the style's position to an anchor. */
module Captions {
  import opened Styling
  import opened Seqs

  /** Characters per caption line. */
  const LineWidth: nat := 40

  function Concat(cs: seq<string>): string {
    if cs == [] then [] else cs[0] + Concat(cs[1..])
  }

  /** `[s[i:i+40] for i in range(0, len(s), 40)]`. */
  function Chunks(s: string): (cs: seq<string>)
    ensures |cs| == (|s| + LineWidth - 1) / LineWidth
    ensures forall k :: 0 <= k < |cs| ==> 0 < |cs[k]| <= LineWidth
    ensures forall k :: 0 <= k < |cs| - 1 ==> |cs[k]| == LineWidth
    ensures Concat(cs) == s
    decreases |s|
  {
    if |s| == 0 then []
    else if |s| <= LineWidth then [s]
    else
      var rest := Chunks(s[LineWidth..]);
      var cs := [s[..LineWidth]] + rest;
      assert cs[1..] == rest;
      assert s == s[..LineWidth] + s[LineWidth..];
      cs
  }

  /** `"\n".join(lines)`. */
  function JoinLines(cs: seq<string>): string {
    if cs == [] then []
    else if |cs| == 1 then cs[0]
    else cs[0] + "\n" + JoinLines(cs[1..])
  }

  /** The text shown on screen for a sentence. */
  function Wrap(s: string): (w: string)
    ensures |s| <= LineWidth ==> w == s
    ensures |s| > LineWidth ==> |w| > LineWidth && w[..LineWidth] == s[..LineWidth] && w[LineWidth] == '\n'
  {
    var cs := Chunks(s);
    if |s| <= LineWidth then
      assert s == [] ==> cs == [];
      JoinLines(cs)
    else
      assert cs[0] == s[..LineWidth] && |cs| > 1;
      JoinLines(cs)
  }

  predicate NoNewline(s: string) {
    forall i :: 0 <= i < |s| ==> s[i] != '\n'
  }

  /** Index of the first newline, or the length when there is none. */
  function NewlineAt(t: string): (i: nat)
    ensures i <= |t|
    ensures NoNewline(t[..i])
    ensures i < |t| ==> t[i] == '\n'
  {
    if t == [] then 0
    else if t[0] == '\n' then 0
    else
      var j := NewlineAt(t[1..]);
      assert t[..j + 1] == [t[0]] + t[1..][..j];
      j + 1
  }

  /** `t.split("\n")`: the lines a reader sees. */
  function Lines(t: string): seq<string>
    decreases |t|
  {
    var i := NewlineAt(t);
    if i == |t| then [t] else [t[..i]] + Lines(t[i + 1..])
  }

  /** Every character that is not a newline, in order. */
  function DropNewlines(t: string): string {
    if t == [] then []
    else (if t[0] == '\n' then [] else [t[0]]) + DropNewlines(t[1..])
  }

  lemma {:induction false} DropNewlinesAppend(a: string, b: string)
    ensures DropNewlines(a + b) == DropNewlines(a) + DropNewlines(b)
    decreases |a|
  {
    if a != [] {
      assert (a + b)[0] == a[0];
      assert (a + b)[1..] == a[1..] + b;
      DropNewlinesAppend(a[1..], b);
    } else {
      assert a + b == b;
    }
  }

  lemma {:induction false} DropNewlinesNone(a: string)
    requires NoNewline(a)
    ensures DropNewlines(a) == a
    decreases |a|
  {
    if a != [] {
      DropNewlinesNone(a[1..]);
    }
  }

  lemma {:induction false} ConcatNoNewline(cs: seq<string>)
    requires forall k :: 0 <= k < |cs| ==> NoNewline(cs[k])
    ensures NoNewline(Concat(cs))
  {
    if cs != [] {
      ConcatNoNewline(cs[1..]);
    }
  }

  /** Deleting the inserted separators from joined lines gives back their
      concatenation. */
  lemma {:induction false} JoinThenDrop(cs: seq<string>)
    requires forall k :: 0 <= k < |cs| ==> NoNewline(cs[k])
    ensures DropNewlines(JoinLines(cs)) == Concat(cs)
  {
    if |cs| == 1 {
      DropNewlinesNone(cs[0]);
      assert Concat(cs) == cs[0] + Concat([]);
    } else if |cs| > 1 {
      JoinThenDrop(cs[1..]);
      DropNewlinesAppend(cs[0] + "\n", JoinLines(cs[1..]));
      DropNewlinesAppend(cs[0], "\n");
      DropNewlinesNone(cs[0]);
    }
  }

  /** For any lines, even ones holding newlines of their own, joining adds
      nothing but newlines. */
  lemma {:induction false} JoinAddsOnlyNewlines(cs: seq<string>)
    ensures DropNewlines(JoinLines(cs)) == DropNewlines(Concat(cs))
  {
    if |cs| == 1 {
      assert Concat(cs) == cs[0] + Concat([]);
      assert cs[0] + [] == cs[0];
    } else if |cs| > 1 {
      JoinAddsOnlyNewlines(cs[1..]);
      DropNewlinesAppend(cs[0] + "\n", JoinLines(cs[1..]));
      DropNewlinesAppend(cs[0], "\n");
      DropNewlinesAppend(cs[0], Concat(cs[1..]));
    }
  }

  /** Wrapping any sentence, newlines included, only inserts newlines: the
      other characters are shown in order, none lost or added. */
  lemma WrapKeepsText(s: string)
    ensures DropNewlines(Wrap(s)) == DropNewlines(s)
  {
    JoinAddsOnlyNewlines(Chunks(s));
  }

  /** Splitting joined lines at the newlines gives back the lines. */
  lemma {:induction false} JoinThenSplit(cs: seq<string>)
    requires |cs| > 0
    requires forall k :: 0 <= k < |cs| ==> NoNewline(cs[k])
    ensures Lines(JoinLines(cs)) == cs
  {
    var t := JoinLines(cs);
    if |cs| == 1 {
      NoNewlineAt(t);
    } else {
      var h := cs[0];
      assert t == h + "\n" + JoinLines(cs[1..]);
      FirstNewlineAfter(h, JoinLines(cs[1..]));
      assert t[|h| + 1..] == JoinLines(cs[1..]);
      assert t[..|h|] == h;
      JoinThenSplit(cs[1..]);
    }
  }

  lemma NoNewlineAt(t: string)
    requires NoNewline(t)
    ensures NewlineAt(t) == |t|
  {
  }

  lemma {:induction false} FirstNewlineAfter(h: string, rest: string)
    requires NoNewline(h)
    ensures NewlineAt(h + "\n" + rest) == |h|
    decreases |h|
  {
    var t := h + "\n" + rest;
    if h != [] {
      assert t[0] == h[0];
      assert t[1..] == h[1..] + "\n" + rest;
      FirstNewlineAfter(h[1..], rest);
    }
  }

  /** A wrapped sentence shows `ceil(len / 40)` lines of at most 40
      characters, every line but the last exactly full, and removing the
      inserted newlines gives back the sentence. */
  lemma WrapLayout(s: string)
    requires s != [] && NoNewline(s)
    ensures var ls := Lines(Wrap(s));
            && |ls| == (|s| + LineWidth - 1) / LineWidth
            && (forall k :: 0 <= k < |ls| ==> 0 < |ls[k]| <= LineWidth)
            && Concat(ls) == s
    ensures DropNewlines(Wrap(s)) == s
  {
    var cs := Chunks(s);
    forall k | 0 <= k < |cs|
      ensures NoNewline(cs[k])
    {
      ChunkInside(s, k);
    }
    JoinThenSplit(cs);
    JoinThenDrop(cs);
  }

  /** Each chunk is a slice of the sentence. */
  lemma {:induction false} ChunkInside(s: string, k: nat)
    requires k < |Chunks(s)|
    ensures k * LineWidth + |Chunks(s)[k]| <= |s|
    ensures Chunks(s)[k] == s[k * LineWidth..k * LineWidth + |Chunks(s)[k]|]
    decreases |s|
  {
    if k > 0 {
      var t := s[LineWidth..];
      var rest := Chunks(t);
      assert |s| > LineWidth;
      assert Chunks(s) == [s[..LineWidth]] + rest;
      ConsIndex(s[..LineWidth], rest, k);
      ChunkInside(t, k - 1);
      var a := (k - 1) * LineWidth;
      SliceOfSuffix(s, LineWidth, a, a + |rest[k - 1]|);
    }
  }

  datatype Anchor = Top | Center | Bottom

  /** `style.get("position", "center")` mapped to the caption's anchor:
      only the strings "bottom" and "top" move it off the centre. */
  function AnchorFor(st: Style): (a: Anchor)
    ensures a == Bottom <==> "position" in st && st["position"] == JString("bottom")
    ensures a == Top <==> "position" in st && st["position"] == JString("top")
  {
    var pos := if "position" in st then st["position"] else JString("center");
    if pos == JString("bottom") then Bottom
    else if pos == JString("top") then Top
    else Center
  }

  /** `style.get("color", "#FFD700")`. */
  function ColorOf(st: Style): (c: Json)
    ensures "color" !in st ==> c == JString(DefaultColor)
    ensures "color" in st ==> c == st["color"]
  {
    if "color" in st then st["color"] else JString(DefaultColor)
  }

  /** The default style puts gold captions in the centre. */
  lemma DefaultStyleCaption()
    ensures AnchorFor(DefaultStyle) == Center
    ensures ColorOf(DefaultStyle) == JString("#FFD700")
  {
  }
}

=== FILE: encoder.dfy ===
/** Device detection, codec selection and the encode attempts of
    `generate_video`. The probes (`torch.cuda`, `wmic`, `ffmpeg -encoders`)
    and `write_videofile` are oracle inputs. */
module Encoder {
  import opened Wrappers
  import opened Text

  /** What `get_hardware_device` observed: an exception, or whether CUDA is
      available together with the raw `wmic` output. */
  datatype Probe = ProbeRaised | Probe(cuda: bool, wmic: string)

  const CudaGpu := "GPU (NVIDIA CUDA)"
  const NvidiaGpu := "GPU (NVIDIA)"
  const AmdGpu := "GPU (AMD)"
  const IntelGpu := "GPU (Intel)"
  const Cpu := "CPU"

  /** An Intel adapter line names one of the integrated or Arc families. */
  predicate IntelGraphics(out: string) {
    && Contains(out, "intel")
    && (Contains(out, "iris") || Contains(out, "arc") || Contains(out, "uhd") || Contains(out, "hd graphics"))
  }

  /** `get_hardware_device`: the first matching class in priority order. */
  function DeviceName(p: Probe): (d: string)
    ensures d in {CudaGpu, NvidiaGpu, AmdGpu, IntelGpu, Cpu}
  {
    match p
    case ProbeRaised => Cpu
    case Probe(cuda, wmic) =>
      var out := Lower(wmic);
      if cuda then CudaGpu
      else if Contains(out, "nvidia") then NvidiaGpu
      else if Contains(out, "amd") || Contains(out, "radeon") then AmdGpu
      else if IntelGraphics(out) then IntelGpu
      else Cpu
  }

  /** Each class is returned exactly when its test holds and every earlier
      test failed; a probe that raised reads as CPU. */
  lemma DevicePriority(p: Probe)
    ensures DeviceName(p) == CudaGpu <==> p.Probe? && p.cuda
    ensures DeviceName(p) == NvidiaGpu <==> p.Probe? && !p.cuda && Contains(Lower(p.wmic), "nvidia")
    ensures DeviceName(p) == AmdGpu <==>
              p.Probe? && !p.cuda && !Contains(Lower(p.wmic), "nvidia")
              && (Contains(Lower(p.wmic), "amd") || Contains(Lower(p.wmic), "radeon"))
    ensures DeviceName(p) == IntelGpu <==>
              p.Probe? && !p.cuda && !Contains(Lower(p.wmic), "nvidia")
              && !Contains(Lower(p.wmic), "amd") && !Contains(Lower(p.wmic), "radeon")
              && IntelGraphics(Lower(p.wmic))
    ensures p.ProbeRaised? ==> DeviceName(p) == Cpu
  {
  }

  /** The encoder settings `write_videofile` is called with. `preset` is
      `None` when the keyword is not passed (moviepy's own default then
      applies). */
  datatype Profile = Profile(codec: string, params: seq<string>, preset: Option<string>)

  const PixFmt: seq<string> := ["-pix_fmt", "yuv420p"]
  const NvencParams: seq<string> := ["-preset", "p1", "-rc", "constqp", "-qp", "28"]
  const AmfParams: seq<string> := ["-usage", "transcoding", "-rc", "cqp", "-qp_i", "28"]
  const QsvParams: seq<string> := ["-global_quality", "28", "-preset", "veryfast"]

  const Software := Profile("libx264", PixFmt, Some("ultrafast"))

  /** `check_encoder(name)`: the name appears in the `ffmpeg -encoders`
      listing; a failed run (`None`) reports nothing available. */
  predicate Available(listing: Option<string>, name: string) {
    listing.Some? && Contains(listing.value, name)
  }

  /** The codec priority chain on the device name. */
  function SelectProfile(device: string, listing: Option<string>): (p: Profile)
    ensures p.codec in {"h264_nvenc", "h264_amf", "h264_qsv", "libx264"}
    ensures p.codec == "h264_nvenc" ==> p.params == PixFmt + NvencParams && p.preset.None?
    ensures p.codec == "h264_amf" ==> p.params == PixFmt + AmfParams && p.preset.None?
    ensures p.codec == "h264_qsv" ==> p.params == PixFmt + QsvParams && p.preset.None?
    ensures p.codec == "libx264" ==> p == Software
    ensures listing.None? ==> p == Software
  {
    if Contains(device, "NVIDIA") && Available(listing, "h264_nvenc") then
      Profile("h264_nvenc", PixFmt + NvencParams, None)
    else if Contains(device, "AMD") && Available(listing, "h264_amf") then
      Profile("h264_amf", PixFmt + AmfParams, None)
    else if Contains(device, "Intel") && Available(listing, "h264_qsv") then
      Profile("h264_qsv", PixFmt + QsvParams, None)
    else Software
  }

  predicate Hardware(p: Profile) {
    p.codec in {"h264_nvenc", "h264_amf", "h264_qsv"}
  }

  /** A hardware codec is chosen exactly when its vendor appears in the
      device name, its encoder is listed, and no earlier vendor in the order
      NVIDIA, AMD, Intel qualified; it then carries its own parameters after
      the pixel format and no preset. Otherwise the choice is
      libx264/ultrafast. */
  lemma SelectionRule(device: string, listing: Option<string>)
    ensures var p := SelectProfile(device, listing);
            && (p.codec == "h264_nvenc" <==> Contains(device, "NVIDIA") && Available(listing, "h264_nvenc"))
            && (p.codec == "h264_amf" <==>
                  !(Contains(device, "NVIDIA") && Available(listing, "h264_nvenc"))
                  && Contains(device, "AMD") && Available(listing, "h264_amf"))
            && (p.codec == "h264_qsv" <==>
                  !(Contains(device, "NVIDIA") && Available(listing, "h264_nvenc"))
                  && !(Contains(device, "AMD") && Available(listing, "h264_amf"))
                  && Contains(device, "Intel") && Available(listing, "h264_qsv"))
            && (p.codec == "h264_nvenc" ==> p.params == PixFmt + NvencParams)
            && (p.codec == "h264_amf" ==> p.params == PixFmt + AmfParams)
            && (p.codec == "h264_qsv" ==> p.params == PixFmt + QsvParams)
            && (Hardware(p) ==> p.preset.None? && p.params[..2] == PixFmt && |p.params| > 2)
            && (!Hardware(p) <==> p == Software)
  {
  }

  /** Nothing listed, or a CPU device, means software encoding. */
  lemma NoEncoderMeansSoftware(p: Probe, listing: Option<string>)
    requires listing.None? || DeviceName(p) == Cpu
    ensures SelectProfile(DeviceName(p), listing) == Software
  {
    if DeviceName(p) == Cpu {
      assert !Contains(Cpu, "NVIDIA") by { NotIn(Cpu, "NVIDIA"); }
      assert !Contains(Cpu, "AMD") by { NotIn(Cpu, "AMD"); }
      assert !Contains(Cpu, "Intel") by { NotIn(Cpu, "Intel"); }
    }
  }

  /** A pattern longer than the text, or as long but different, does not
      occur in it. */
  lemma NotIn(s: string, p: string)
    requires |p| > |s| || (|p| == |s| && p != s)
    ensures !Contains(s, p)
  {
    if |p| == |s| {
      assert s[0..|p|] == s;
    }
  }

  // ---- the write attempts ----

  /** One `write_videofile` call on the output path. */
  datatype WriteCall = WriteCall(codec: string, params: seq<string>, preset: Option<string>,
                                 fps: nat, audioCodec: string, threads: nat)

  /** The first block's main attempt: every selected setting, the preset
      only when one was selected. */
  function FirstWrite(p: Profile): WriteCall {
    WriteCall(p.codec, p.params, p.preset, 24, "aac", 12)
  }

  /** The second block's main attempt: the same codec and parameters but no
      `preset` keyword. */
  function SecondWrite(p: Profile): WriteCall {
    WriteCall(p.codec, p.params, None, 24, "aac", 12)
  }

  /** The fallback in both blocks: libx264 at ultrafast, no extra
      parameters. */
  const FallbackWrite := WriteCall("libx264", [], Some("ultrafast"), 24, "aac", 12)

  /** The calls made and whether the last one returned normally. */
  datatype Attempts = Attempts(calls: seq<WriteCall>, ok: bool)

  /** One `try: main except: fallback` block; `succeeds(n)` says whether the
      `n`-th write of the job returns normally. */
  function Block(main: WriteCall, n: nat, succeeds: nat -> bool): (a: Attempts)
    ensures |a.calls| in {1, 2} && a.calls[0] == main
    ensures |a.calls| == 2 <==> !succeeds(n)
    ensures |a.calls| == 2 ==> a.calls[1] == FallbackWrite
    ensures a.ok <==> succeeds(n) || succeeds(n + 1)
  {
    if succeeds(n) then Attempts([main], true)
    else Attempts([main, FallbackWrite], succeeds(n + 1))
  }

  /** The two blocks as written: the second runs after the first succeeds,
      writing the same file again; a block whose fallback also raises ends
      the job with that error. */
  function EncodeAsWritten(p: Profile, succeeds: nat -> bool): (a: Attempts)
    ensures 1 <= |a.calls| <= 4 && a.calls[0] == FirstWrite(p)
    ensures !Block(FirstWrite(p), 0, succeeds).ok ==> a == Block(FirstWrite(p), 0, succeeds)
    ensures a.ok ==> Block(FirstWrite(p), 0, succeeds).ok && SecondWrite(p) in a.calls
  {
    var b1 := Block(FirstWrite(p), 0, succeeds);
    if !b1.ok then b1
    else
      var b2 := Block(SecondWrite(p), |b1.calls|, succeeds);
      Attempts(b1.calls + b2.calls, b2.ok)
  }

  /** Facts about the attempt sequence: two to four writes on success, every
      fallback is libx264/ultrafast, no block tries a third time, and the
      job fails exactly when a block's main write and its fallback both
      raise. */
  lemma EncodeAttempts(p: Profile, succeeds: nat -> bool)
    ensures var a := EncodeAsWritten(p, succeeds);
            && 1 <= |a.calls| <= 4
            && a.calls[0] == FirstWrite(p)
            && (a.ok ==> 2 <= |a.calls|)
            && (forall i :: 0 <= i < |a.calls| ==> a.calls[i].fps == 24 && a.calls[i].audioCodec == "aac")
            && (forall i :: 0 <= i < |a.calls| ==>
                  a.calls[i] == FirstWrite(p) || a.calls[i] == SecondWrite(p) || a.calls[i] == FallbackWrite)
            && (!succeeds(0) ==> a.calls[1] == FallbackWrite)
            && (!a.ok <==> (!succeeds(0) && !succeeds(1))
                           || (var n := if succeeds(0) then 1 else 2; !succeeds(n) && !succeeds(n + 1)))
  {
  }

  /** When no write raises, the file is written twice: first with the
      selected preset, then again without any preset. */
  lemma CleanRunWritesTwice(p: Profile, succeeds: nat -> bool)
    requires forall n :: succeeds(n)
    ensures EncodeAsWritten(p, succeeds) == Attempts([FirstWrite(p), SecondWrite(p)], true)
  {
  }

  /** A hardware write that raises is retried once in software and the job
      still ends with a written file when that retry and the rest succeed. */
  lemma HardwareFailureRecovered(p: Profile, succeeds: nat -> bool)
    requires Hardware(p)
    requires !succeeds(0) && forall n :: n >= 1 ==> succeeds(n)
    ensures EncodeAsWritten(p, succeeds) == Attempts([FirstWrite(p), FallbackWrite, SecondWrite(p)], true)
  {
  }

  /** The second block can fail a job whose first block already wrote the
      file: when the preset-less rewrite and its fallback both raise, the
      whole encode fails although the first write succeeded. */
  lemma SecondBlockFailureFailsJob(p: Profile, succeeds: nat -> bool)
    requires succeeds(0) && !succeeds(1) && !succeeds(2)
    ensures Block(FirstWrite(p), 0, succeeds).ok
    ensures EncodeAsWritten(p, succeeds) == Attempts([FirstWrite(p), SecondWrite(p), FallbackWrite], false)
  {
  }
}

=== FILE: geometry.dfy ===
/** Frame geometry in `generate_video`: the target frame for the aspect
    ratio, the cover-and-centre-crop transform applied to stock footage and
    generated images, and the loop-or-trim fit to the scene duration.
    Sizes are real numbers; moviepy's rounding to whole pixels is not
    modelled. */
module Geometry {

  datatype Size = Size(w: real, h: real)

  predicate Positive(s: Size) {
    s.w > 0.0 && s.h > 0.0
  }

  /** 1080x1920 for "9:16"; every other value, "16:9" included, gives
      1920x1080. */
  function TargetSize(aspect: string): (t: Size)
    ensures aspect == "9:16" <==> t == Size(1080.0, 1920.0)
    ensures aspect != "9:16" <==> t == Size(1920.0, 1080.0)
    ensures Positive(t)
  {
    if aspect == "9:16" then Size(1080.0, 1920.0) else Size(1920.0, 1080.0)
  }

  /** `vfx.Resize(height=h)`: scale so the height is `h`, keeping the aspect. */
  function ResizeToHeight(s: Size, h: real): (r: Size)
    requires Positive(s) && h > 0.0
    ensures Positive(r) && r.h == h
    ensures r.w * s.h == s.w * r.h
  {
    Size(s.w * (h / s.h), h)
  }

  /** `vfx.Resize(width=w)`: scale so the width is `w`, keeping the aspect. */
  function ResizeToWidth(s: Size, w: real): (r: Size)
    requires Positive(s) && w > 0.0
    ensures Positive(r) && r.w == w
    ensures r.w * s.h == s.w * r.h
  {
    Size(w, s.h * (w / s.w))
  }

  /** The crop `cropped(x1=w/2 - W/2, width=W, height=H)` applied to the
      resized frame, with y1 left at 0. */
  datatype Crop = Crop(resized: Size, x1: real, y1: real, out: Size)

  /** Resize to the target height, widen to the target width when still too
      narrow, then take a centred window of the target size. */
  function CoverCrop(src: Size, target: Size): (c: Crop)
    requires Positive(src) && Positive(target)
  {
    var r1 := ResizeToHeight(src, target.h);
    var r2 := if r1.w < target.w then ResizeToWidth(r1, target.w) else r1;
    Crop(r2, r2.w / 2.0 - target.w / 2.0, 0.0, target)
  }

  /** Scaling twice with the aspect kept keeps it overall. */
  lemma AspectChain(a: Size, b: Size, c: Size)
    requires Positive(a) && Positive(b) && Positive(c)
    requires b.w * a.h == a.w * b.h && c.w * b.h == b.w * c.h
    ensures c.w * a.h == a.w * c.h
  {
    var k := b.w / a.w;
    assert b.h == k * a.h by {
      assert b.w == k * a.w;
    }
    var m := c.w / b.w;
    assert c.w == m * b.w;
    assert c.h == m * b.h;
    assert c.w == m * k * a.w && c.h == m * k * a.h;
  }

  lemma RatioAboveOne(a: real, b: real)
    requires 0.0 < b < a
    ensures a / b > 1.0
  {
    var q := a / b;
    assert q * b == a;
    assert (q - 1.0) * b == a - b;
  }

  lemma ScaleUp(x: real, q: real)
    requires x > 0.0 && q > 1.0
    ensures x * q > x
  {
    assert x * q - x == x * (q - 1.0);
  }

  /** The crop window lies inside the resized frame, is centred in it, the
      output has exactly the target size, and the resize kept the source's
      aspect. */
  lemma CoverCropFits(src: Size, target: Size)
    requires Positive(src) && Positive(target)
    ensures var c := CoverCrop(src, target);
            && c.out == target
            && c.x1 >= 0.0 && c.x1 + target.w <= c.resized.w
            && c.y1 == 0.0 && target.h <= c.resized.h
            && c.x1 == c.resized.w - (c.x1 + target.w)
            && c.resized.w * src.h == src.w * c.resized.h
  {
    var r1 := ResizeToHeight(src, target.h);
    if r1.w < target.w {
      var r2 := ResizeToWidth(r1, target.w);
      RatioAboveOne(target.w, r1.w);
      ScaleUp(r1.h, target.w / r1.w);
      assert r2.h == r1.h * (target.w / r1.w);
      AspectChain(src, r1, r2);
    }
  }

  /** Which operation brought a clip to the scene duration. */
  datatype Fit = Looped | Trimmed

  /** `clip.loop(duration=d)` when the clip is shorter than the scene,
      `clip.subclipped(0, d)` otherwise. Either way the clip lasts `d`. */
  function FitTo(clipDuration: real, d: real): (f: Fit)
    ensures f == Looped <==> clipDuration < d
    ensures f == Trimmed ==> d <= clipDuration
  {
    if clipDuration < d then Looped else Trimmed
  }
}

=== FILE: pipeline.dfy ===
/** `generate_video`: narration, scene segmentation and timing, per-scene
    visuals and captions, the timeline, background music, encoding, and the
    cleanup in `finally`. Every external call is an oracle field of `Env`. */
module Pipeline {
  import opened Wrappers
  import opened Seqs
  import opened Segmenter
  import opened Styling
  import opened Captions
  import opened Geometry
  import opened Sourcing
  import opened Encoder

  // ---- narration ----

  /** The friendly voice names of `generate_audio_from_text`. */
  const VoiceMap: map<string, string> := map[
    "Male (Default)" := "en-US-ChristopherNeural",
    "Female (Default)" := "en-US-AriaNeural",
    "Islamic (Male)" := "ar-SA-HamedNeural",
    "Islamic (Female)" := "ar-SA-ZariyahNeural",
    "Deep (Male)" := "en-US-EricNeural"]

  const DefaultVoice := "en-US-AriaNeural"

  /** `voice_map.get(voice, voice) or "en-US-AriaNeural"`: friendly names are
      translated, any other non-empty name is taken as an engine voice id. */
  function VoiceFor(name: string): (v: string)
    ensures v != ""
    ensures name in VoiceMap ==> v == VoiceMap[name]
    ensures name !in VoiceMap && name != "" ==> v == name
    ensures name == "" ==> v == DefaultVoice
  {
    var v := if name in VoiceMap then VoiceMap[name] else name;
    if v == "" then DefaultVoice else v
  }

  /** Engine voice ids pass through unchanged, so resolving a resolved name
      changes nothing. */
  lemma VoiceIdempotent(name: string)
    ensures VoiceFor(VoiceFor(name)) == VoiceFor(name)
  {
    assert forall k :: k in VoiceMap ==> VoiceMap[k] !in VoiceMap;
  }

  /** Where the narration came from. */
  datatype Narration = Uploaded | Synthesized(voice: string)

  // ---- inputs ----

  /** The job's arguments. Missing keys and endpoints are empty strings, and
      missing or empty uploads are empty byte strings: Python treats `None`
      and `b""` alike here. */
  datatype Job = Job(
    script: string,
    voiceover: seq<bv8>,
    genre: string,
    pexelsKey: string,
    pixabayKey: string,
    geminiKey: string,
    aspect: string,
    voiceName: string,
    music: seq<bv8>,
    volume: real)

  /** The oracle results for one scene. */
  datatype SceneEnv = SceneEnv(
    keywordsRaise: bool,
    pexels: Option<seq<seq<VideoFile>>>,
    pixabay: Option<seq<PixabayHit>>,
    draw: nat -> nat,
    fetch: string -> StockOutcome,
    ai: AiEnv,
    styling: StylingEnv,
    textClipRaises: bool)

  /** The oracle results for the whole job: speech synthesis, the narration's
      decoded duration, each scene's oracles, the music's decoded duration,
      the device probe, the `ffmpeg -encoders` listing and the outcome of
      the `n`-th `write_videofile` call. */
  datatype Env = Env(
    ttsRaises: bool,
    narration: Option<real>,
    scene: nat -> SceneEnv,
    musicDuration: Option<real>,
    probe: Probe,
    listing: Option<string>,
    succeeds: nat -> bool)

  // ---- one scene ----

  /** A caption overlay as `TextClip` receives it. */
  datatype Caption = Caption(text: string, color: Json, anchor: Anchor, fontSize: nat, boxWidth: real)

  datatype SceneClip = SceneClip(visual: SceneVisual, caption: Option<Caption>)

  /** 80 points for exactly "16:9", 60 for anything else. */
  function FontSize(aspect: string): (size: nat)
    ensures size == 80 <==> aspect == "16:9"
    ensures size == 60 <==> aspect != "16:9"
  {
    if aspect == "16:9" then 80 else 60
  }

  /** The subtitle `try` block: the wrapped sentence styled by
      `get_smart_styling`, or no caption when building the text clip
      raises. */
  function CaptionFor(sentence: string, job: Job, env: SceneEnv, target: Size): (c: Option<Caption>)
    ensures c.Some? <==> !env.textClipRaises
    ensures c.Some? ==> c.value.text == Wrap(sentence)
    ensures c.Some? ==> c.value.fontSize == FontSize(job.aspect) && c.value.boxWidth == target.w - 200.0
    ensures job.geminiKey == "" && c.Some? ==> c.value.anchor == Center && c.value.color == JString(DefaultColor)
  {
    if env.textClipRaises then None
    else
      var st := SmartStyling(job.geminiKey, env.styling).Value();
      Some(Caption(Wrap(sentence), ColorOf(st), AnchorFor(st), FontSize(job.aspect), target.w - 200.0))
  }

  /** With a Gemini key and a derived style, the caption takes the style's
      colour (gold when it has none) and its position, at 80 points for
      "16:9" and 60 otherwise, 200 units narrower than the frame. */
  lemma KeyedCaption(sentence: string, job: Job, env: SceneEnv, target: Size)
    requires SmartStyling(job.geminiKey, env.styling).Derived?
    requires !env.textClipRaises
    ensures var st := SmartStyling(job.geminiKey, env.styling).style;
            var c := CaptionFor(sentence, job, env, target);
            && c.Some?
            && c.value.text == Wrap(sentence)
            && c.value.color == (if "color" in st then st["color"] else JString(DefaultColor))
            && (c.value.anchor == Bottom <==> "position" in st && st["position"] == JString("bottom"))
            && (c.value.anchor == Top <==> "position" in st && st["position"] == JString("top"))
            && c.value.fontSize == (if job.aspect == "16:9" then 80 else 60)
            && c.value.boxWidth == target.w - 200.0
  {
  }

  /** Traced back to the model's reply: the caption's colour and position
      are the ones in the JSON object the first answering model returned. */
  lemma ReplyCaption(sentence: string, job: Job, env: SceneEnv, target: Size, fields: map<string, Json>)
    requires job.geminiKey != "" && !env.styling.configureRaises && !env.textClipRaises
    requires FirstAnswer(Models, env.styling.ask) < |Models|
    requires env.styling.ask(Models[FirstAnswer(Models, env.styling.ask)]).text.Some?
    requires env.styling.parse(CleanFences(env.styling.ask(Models[FirstAnswer(Models, env.styling.ask)]).text.value))
             == Some(JObject(fields))
    requires FontFor(fields).Some?
    ensures var c := CaptionFor(sentence, job, env, target);
            && c.Some?
            && c.value.color == (if "color" in fields then fields["color"] else JString(DefaultColor))
            && (c.value.anchor == Bottom <==> "position" in fields && fields["position"] == JString("bottom"))
            && (c.value.anchor == Top <==> "position" in fields && fields["position"] == JString("top"))
  {
    StyleFromReply(job.geminiKey, env.styling, fields);
    KeyedCaption(sentence, job, env, target);
  }

  /** Why a job raised. */
  datatype Failure =
    | NarrationFailed
    | AudioUnreadable
    | KeywordsFailed
    | EmptyTimeline
    | EncodingFailed
    | UnboundMusicPath

  /** What a finished scene shows, by the fallback ladder: stock footage
      exactly when one of the scene's candidates is usable, and then one of
      them; else the AI image when that step succeeds; else the dark
      placeholder. The caption is there exactly when `TextClip` did not
      raise, and shows the wrapped sentence. */
  ghost predicate OnLadder(c: SceneClip, sentence: string, d: real, job: Job, env: SceneEnv, target: Size)
    requires Positive(target)
  {
    var cands := Candidates(job.pexelsKey, env.pexels, job.pixabayKey, env.pixabay);
    var ok := StockAvailable(cands, env.fetch);
    var ai := AiStep(job.geminiKey, env.ai, target, d);
    && (c.visual.visual.StockVideo? <==> ok)
    && (c.visual.visual.StockVideo? ==> c.visual.visual.url in cands && Usable(env.fetch(c.visual.visual.url)))
    && (c.visual.visual.AiImage? <==> !ok && ai.Some?)
    && (c.visual.visual.AiImage? ==> c.visual == ai.value)
    && (c.visual.visual.Placeholder? <==> !ok && ai.None?)
    && (c.visual.visual.Placeholder? ==> c.visual.visual == DarkPlaceholder)
    && (c.caption.Some? <==> !env.textClipRaises)
    && (c.caption.Some? ==> c.caption.value.text == Wrap(sentence))
  }

  /** One iteration of the scene loop. Only keyword extraction can raise
      out of it; every other failure is absorbed by a fallback. */
  function ProcessScene(sentence: string, d: real, job: Job, env: SceneEnv, target: Size): (r: Result<SceneClip, Failure>)
    requires Positive(target)
    ensures r.Err? <==> env.keywordsRaise
    ensures r.Err? ==> r.error == KeywordsFailed
    ensures r.Ok? ==> r.value.visual.size == target && r.value.visual.duration == d
  {
    if env.keywordsRaise then Err(KeywordsFailed)
    else
      var cands := Candidates(job.pexelsKey, env.pexels, job.pixabayKey, env.pixabay);
      var v := Resolve(Shuffle(cands, env.draw), env.fetch, job.geminiKey, env.ai, target, d);
      Ok(SceneClip(v, CaptionFor(sentence, job, env, target)))
  }

  /** A scene that does not raise follows the fallback ladder: stock
      exactly when a candidate is usable (whatever the shuffle), else the AI
      image when that step succeeds, else the placeholder; and it carries a
      caption exactly when `TextClip` did not raise. */
  lemma SceneLadder(sentence: string, d: real, job: Job, env: SceneEnv, target: Size)
    requires Positive(target) && !env.keywordsRaise
    ensures ProcessScene(sentence, d, job, env, target).Ok?
    ensures OnLadder(ProcessScene(sentence, d, job, env, target).value, sentence, d, job, env, target)
  {
    var cands := Candidates(job.pexelsKey, env.pexels, job.pixabayKey, env.pixabay);
    ShuffledLadder(cands, env.draw, env.fetch, job.geminiKey, env.ai, target, d);
  }

  /** The scene loop from scene `k` on. */
  function Scenes(ss: seq<string>, ds: seq<real>, job: Job, env: Env, target: Size, k: nat): (r: Result<seq<SceneClip>, Failure>)
    requires |ds| == |ss| && Positive(target)
    ensures r.Err? ==> r.error == KeywordsFailed
    ensures r.Ok? ==> |r.value| == |ss|
    decreases |ss|
  {
    if ss == [] then Ok([])
    else
      var head := ProcessScene(ss[0], ds[0], job, env.scene(k), target);
      if head.Err? then Err(head.error)
      else
        var tail := Scenes(ss[1..], ds[1..], job, env, target, k + 1);
        if tail.Err? then Err(tail.error)
        else Ok([head.value] + tail.value)
  }

  /** Every scene of a completed loop has the target size and lasts exactly
      its sentence's duration. */
  lemma {:induction false} ScenesShape(ss: seq<string>, ds: seq<real>, job: Job, env: Env, target: Size, k: nat)
    requires |ds| == |ss| && Positive(target)
    requires Scenes(ss, ds, job, env, target, k).Ok?
    ensures forall i :: 0 <= i < |ss| ==>
              Scenes(ss, ds, job, env, target, k).value[i].visual.size == target
              && Scenes(ss, ds, job, env, target, k).value[i].visual.duration == ds[i]
    decreases |ss|
  {
    if ss != [] {
      var all := Scenes(ss, ds, job, env, target, k).value;
      var head := ProcessScene(ss[0], ds[0], job, env.scene(k), target);
      var rest := Scenes(ss[1..], ds[1..], job, env, target, k + 1).value;
      ScenesShape(ss[1..], ds[1..], job, env, target, k + 1);
      assert all == [head.value] + rest;
      forall i | 1 <= i < |ss|
        ensures all[i].visual.size == target && all[i].visual.duration == ds[i]
      {
        ConsIndex(head.value, rest, i);
        assert ds[i] == ds[1..][i - 1];
      }
    }
  }

  /** Every scene of a completed loop follows the fallback ladder on its own
      scene's oracles and shows its own sentence. */
  lemma ScenesFollowLadder(ss: seq<string>, ds: seq<real>, job: Job, env: Env, target: Size, k: nat)
    requires |ds| == |ss| && Positive(target)
    requires Scenes(ss, ds, job, env, target, k).Ok?
    ensures forall i :: 0 <= i < |ss| ==>
              OnLadder(Scenes(ss, ds, job, env, target, k).value[i], ss[i], ds[i], job, env.scene(k + i), target)
  {
    forall i | 0 <= i < |ss|
      ensures OnLadder(Scenes(ss, ds, job, env, target, k).value[i], ss[i], ds[i], job, env.scene(k + i), target)
    {
      SceneAt(ss, ds, job, env, target, k, i);
      SceneLadder(ss[i], ds[i], job, env.scene(k + i), target);
    }
  }

  /** Scene `i` of a completed loop is the loop body run on sentence `i`
      with the oracles of scene `k + i`. */
  lemma SceneAt(ss: seq<string>, ds: seq<real>, job: Job, env: Env, target: Size, k: nat, i: nat)
    requires |ds| == |ss| && Positive(target) && i < |ss|
    requires Scenes(ss, ds, job, env, target, k).Ok?
    ensures ProcessScene(ss[i], ds[i], job, env.scene(k + i), target).Ok?
    ensures Scenes(ss, ds, job, env, target, k).value[i] == ProcessScene(ss[i], ds[i], job, env.scene(k + i), target).value
  {
    var j := k + i;
    var ts, es := ss[i..], ds[i..];
    SceneSuffix(ss, ds, job, env, target, k, i, j);
    assert Scenes(ts, es, job, env, target, j).Ok?;
    SceneHead(ts, es, job, env, target, j);
    SameOracles(env, j, k + i);
    SuffixHead(ss, i);
    SuffixHead(ds, i);
    SameScene(ts[0], ss[i], es[0], ds[i], job, env.scene(j), env.scene(k + i), target);
  }

  /** The loop from scene `k` reaches scene `j == k + i` as the loop from
      there on the remaining sentences. */
  lemma {:induction false} SceneSuffix(ss: seq<string>, ds: seq<real>, job: Job, env: Env, target: Size, k: nat, i: nat, j: nat)
    requires |ds| == |ss| && Positive(target) && i < |ss| && j == k + i
    requires Scenes(ss, ds, job, env, target, k).Ok?
    ensures Scenes(ss[i..], ds[i..], job, env, target, j).Ok?
    ensures Scenes(ss, ds, job, env, target, k).value[i] == Scenes(ss[i..], ds[i..], job, env, target, j).value[0]
    decreases i
  {
    if i > 0 {
      var all := Scenes(ss, ds, job, env, target, k).value;
      var head := ProcessScene(ss[0], ds[0], job, env.scene(k), target);
      var rest := Scenes(ss[1..], ds[1..], job, env, target, k + 1).value;
      SceneSuffix(ss[1..], ds[1..], job, env, target, k + 1, i - 1, j);
      assert all == [head.value] + rest;
      ConsIndex(head.value, rest, i);
      assert ss[1..][i - 1..] == ss[i..] && ds[1..][i - 1..] == ds[i..];
    } else {
      assert ss[i..] == ss && ds[i..] == ds;
    }
  }

  /** The loop body is a function of its inputs. */
  lemma SameScene(s1: string, s2: string, d1: real, d2: real, job: Job, e1: SceneEnv, e2: SceneEnv, target: Size)
    requires Positive(target) && s1 == s2 && d1 == d2 && e1 == e2
    ensures ProcessScene(s1, d1, job, e1, target) == ProcessScene(s2, d2, job, e2, target)
  {
  }

  /** Equal scene numbers read equal oracles. */
  lemma SameOracles(env: Env, a: nat, b: nat)
    requires a == b
    ensures env.scene(a) == env.scene(b)
  {
  }

  /** Scene 0 of a completed loop is the loop body run on the first
      sentence with the oracles of scene `k`. */
  lemma SceneHead(ss: seq<string>, ds: seq<real>, job: Job, env: Env, target: Size, k: nat)
    requires |ds| == |ss| && Positive(target) && 0 < |ss|
    requires Scenes(ss, ds, job, env, target, k).Ok?
    ensures ProcessScene(ss[0], ds[0], job, env.scene(k), target).Ok?
    ensures Scenes(ss, ds, job, env, target, k).value[0] == ProcessScene(ss[0], ds[0], job, env.scene(k), target).value
  {
  }

  /** Without any key every scene is the dark placeholder, and every caption
      that is shown uses the default gold, centred style. */
  lemma {:induction false} ScenesWithoutKeys(ss: seq<string>, ds: seq<real>, job: Job, env: Env, target: Size, k: nat)
    requires |ds| == |ss| && Positive(target)
    requires job.pexelsKey == "" && job.pixabayKey == "" && job.geminiKey == ""
    requires Scenes(ss, ds, job, env, target, k).Ok?
    ensures forall i :: 0 <= i < |ss| ==>
              var c := Scenes(ss, ds, job, env, target, k).value[i];
              && c.visual.visual == DarkPlaceholder
              && (c.caption.Some? ==> c.caption.value.anchor == Center && c.caption.value.color == JString(DefaultColor))
    decreases |ss|
  {
    if ss != [] {
      var e := env.scene(k);
      NoKeysPlaceholder(e.pexels, e.pixabay, e.draw, e.fetch, e.ai, target, ds[0]);
      ScenesWithoutKeys(ss[1..], ds[1..], job, env, target, k + 1);
      var all := Scenes(ss, ds, job, env, target, k).value;
      var head := ProcessScene(ss[0], ds[0], job, e, target);
      var rest := Scenes(ss[1..], ds[1..], job, env, target, k + 1).value;
      assert all == [head.value] + rest;
      forall i | 1 <= i < |all| ensures all[i] == rest[i - 1] {
        ConsIndex(head.value, rest, i);
      }
    }
  }

  // ---- background music ----

  /** What the output audio is: the narration alone, or the narration mixed
      with the music brought to length and scaled by the volume. */
  datatype Mix = NarrationOnly | Mixed(fit: Fit, volume: real)

  /** The music block: no music without bytes; a music file that fails to
      decode is skipped; otherwise loop it when shorter than the narration
      and trim it when not. */
  function MixMusic(music: seq<bv8>, musicDuration: Option<real>, duration: real, volume: real): (m: Mix)
    ensures m.Mixed? <==> |music| > 0 && musicDuration.Some?
    ensures m.Mixed? ==> m.volume == volume && (m.fit == Looped <==> musicDuration.value < duration)
  {
    if |music| == 0 then NarrationOnly
    else match musicDuration
      case None => NarrationOnly
      case Some(md) => Mixed(FitTo(md, duration), volume)
  }

  // ---- the job ----

  /** The temporary files the job creates for audio. */
  datatype TempFile = NarrationFile | MusicFile

  /** A finished video: its scenes, total duration, audio, encoder profile
      and the writes made. */
  datatype Produced = Produced(
    narration: Narration,
    scenes: seq<SceneClip>,
    duration: real,
    mix: Mix,
    profile: Profile,
    writes: seq<WriteCall>)

  /** The `try` body's outcome, the audio temp files whose paths were
      assigned, and whether `bg_music_path` was bound before leaving it. */
  datatype Body = Body(result: Result<Produced, Failure>, created: set<TempFile>, musicBound: bool)

  /** The uploaded voice-over when one was given, else Edge TTS with the
      resolved voice; `None` when synthesis raised. */
  function NarrationOf(job: Job, env: Env): (n: Option<Narration>)
    ensures |job.voiceover| > 0 ==> n == Some(Uploaded)
    ensures n.None? <==> |job.voiceover| == 0 && env.ttsRaises
    ensures n.Some? && n.value.Synthesized? ==> |job.voiceover| == 0 && n.value.voice == VoiceFor(job.voiceName)
  {
    if |job.voiceover| > 0 then Some(Uploaded)
    else if env.ttsRaises then None
    else Some(Synthesized(VoiceFor(job.voiceName)))
  }

  /** The steps after the scene loop: music, codec choice, the two encode
      blocks. */
  function Finish(narration: Narration, clips: seq<SceneClip>, duration: real, job: Job, env: Env): (b: Body)
    ensures b.musicBound
    ensures b.created == {NarrationFile} + (if |job.music| > 0 then {MusicFile} else {})
    ensures b.result.Err? <==> !EncodeAsWritten(SelectProfile(DeviceName(env.probe), env.listing), env.succeeds).ok
    ensures b.result.Err? ==> b.result.error == EncodingFailed
    ensures b.result.Ok? ==> b.result.value.scenes == clips && b.result.value.duration == duration
    ensures b.result.Ok? ==> b.result.value.narration == narration
    ensures b.result.Ok? ==> (b.result.value.mix.Mixed? <==> |job.music| > 0 && env.musicDuration.Some?)
    ensures b.result.Ok? && b.result.value.mix.Mixed? ==>
              b.result.value.mix.volume == job.volume
              && (b.result.value.mix.fit == Looped <==> env.musicDuration.value < duration)
    ensures b.result.Ok? ==> b.result.value.profile == SelectProfile(DeviceName(env.probe), env.listing)
    ensures b.result.Ok? ==> b.result.value.writes == EncodeAsWritten(b.result.value.profile, env.succeeds).calls
  {
    var mix := MixMusic(job.music, env.musicDuration, duration, job.volume);
    var profile := SelectProfile(DeviceName(env.probe), env.listing);
    var enc := EncodeAsWritten(profile, env.succeeds);
    var created := {NarrationFile} + (if |job.music| > 0 then {MusicFile} else {});
    if !enc.ok then Body(Err(EncodingFailed), created, true)
    else Body(Ok(Produced(narration, clips, duration, mix, profile, enc.calls)), created, true)
  }

  /** The sentences' scenes, each lasting its share of `duration`; an
      empty timeline raises in `concatenate_videoclips`. */
  function Timeline(job: Job, env: Env, duration: real): (r: Result<seq<SceneClip>, Failure>)
    ensures r.Ok? ==> |r.value| == |Sentences(job.script)| > 0
    ensures r.Ok? ==> forall i :: 0 <= i < |r.value| ==>
              r.value[i].visual.size == TargetSize(job.aspect)
              && r.value[i].visual.duration == Durations(Sentences(job.script), duration)[i]
    ensures r.Err? ==> r.error == KeywordsFailed || r.error == EmptyTimeline
    ensures Sentences(job.script) == [] ==> r == Err(EmptyTimeline)
    ensures Sentences(job.script) != [] ==> r == Scenes(Sentences(job.script), Durations(Sentences(job.script), duration), job, env, TargetSize(job.aspect), 0)
    ensures Sentences(job.script) != [] && r.Err? ==> r.error == KeywordsFailed
  {
    var ss := Sentences(job.script);
    match Scenes(ss, Durations(ss, duration), job, env, TargetSize(job.aspect), 0)
    case Err(e) => Err(e)
    case Ok(clips) =>
      ScenesShape(ss, Durations(ss, duration), job, env, TargetSize(job.aspect), 0);
      if clips == [] then Err(EmptyTimeline) else Ok(clips)
  }

  /** The `try` body of `generate_video`. */
  function RunBody(job: Job, env: Env): (b: Body)
    ensures NarrationOf(job, env).None? ==> b == Body(Err(NarrationFailed), {}, false)
    ensures NarrationOf(job, env).Some? && !b.musicBound ==> b.created == {NarrationFile}
    ensures b.musicBound <==> NarrationOf(job, env).Some? && env.narration.Some? && Timeline(job, env, env.narration.value).Ok?
    ensures b.musicBound ==> b == Finish(NarrationOf(job, env).value, Timeline(job, env, env.narration.value).value,
                                         env.narration.value, job, env)
    ensures NarrationOf(job, env).Some? && env.narration.None? ==> b == Body(Err(AudioUnreadable), {NarrationFile}, false)
    ensures NarrationOf(job, env).Some? && env.narration.Some? && Timeline(job, env, env.narration.value).Err? ==>
              b == Body(Err(Timeline(job, env, env.narration.value).error), {NarrationFile}, false)
    ensures b.result.Err? ==> b.result.error != UnboundMusicPath
  {
    match NarrationOf(job, env)
    case None => Body(Err(NarrationFailed), {}, false)
    case Some(narration) =>
      match env.narration
      case None => Body(Err(AudioUnreadable), {NarrationFile}, false)
      case Some(duration) =>
        match Timeline(job, env, duration)
        case Err(e) => Body(Err(e), {NarrationFile}, false)
        case Ok(clips) => Finish(narration, clips, duration, job, env)
  }

  /** What the caller sees and which temp files were removed. */
  datatype Outcome = Outcome(result: Result<Produced, Failure>, removed: set<TempFile>)

  /** The `finally` block with `bg_music_path` bound from the start:
      every assigned audio path is removed and the body's result stands. */
  function Cleanup(b: Body): (o: Outcome)
    ensures o.result == b.result && o.removed == b.created
  {
    Outcome(b.result, b.created)
  }

  /** The `finally` block as written: `bg_music_path` is first assigned
      inside the `try`, after the scene loop. When the body left before that
      point, the narration file is still removed, but reading the unbound
      name then raises, replacing the body's error. */
  function CleanupAsWritten(b: Body): (o: Outcome)
    ensures b.musicBound ==> o == Cleanup(b)
    ensures !b.musicBound ==> o.result == Err(UnboundMusicPath)
    ensures o.removed == b.created
  {
    if b.musicBound then Outcome(b.result, b.created)
    else Outcome(Err(UnboundMusicPath), b.created)
  }

  /** `generate_video` with the cleanup written as intended. */
  function GenerateVideo(job: Job, env: Env): (o: Outcome)
    ensures o.result == RunBody(job, env).result && o.removed == RunBody(job, env).created
    ensures o.result.Err? ==> o.result.error != UnboundMusicPath
  {
    Cleanup(RunBody(job, env))
  }

  /** `generate_video` as written. */
  function GenerateVideoAsWritten(job: Job, env: Env): (o: Outcome)
    ensures o.removed == GenerateVideo(job, env).removed
    ensures o.result == Err(UnboundMusicPath) <==> !RunBody(job, env).musicBound
    ensures RunBody(job, env).musicBound ==> o == GenerateVideo(job, env)
  {
    CleanupAsWritten(RunBody(job, env))
  }

  // ---- properties of the job ----

  /** A produced video has one scene per sentence, each at the target size,
      each lasting its character share; the shares add up to the narration
      duration, which is also the timeline's length, so forcing the length
      afterwards changes nothing in exact arithmetic. */
  lemma TimelineMatchesNarration(job: Job, env: Env)
    requires GenerateVideo(job, env).result.Ok?
    ensures var p := GenerateVideo(job, env).result.value;
            var ss := Sentences(job.script);
            && env.narration == Some(p.duration)
            && |p.scenes| == |ss| > 0
            && (forall i :: 0 <= i < |ss| ==>
                  p.scenes[i].visual.size == TargetSize(job.aspect)
                  && p.scenes[i].visual.duration == Durations(ss, p.duration)[i])
            && Sum(Durations(ss, p.duration)) == p.duration
  {
    var p := GenerateVideo(job, env).result.value;
    var ss := Sentences(job.script);
    DurationsSum(ss, p.duration);
  }

  /** With no keys configured, a produced video is all placeholders with
      default-styled captions. */
  lemma NoKeysAllPlaceholders(job: Job, env: Env)
    requires job.pexelsKey == "" && job.pixabayKey == "" && job.geminiKey == ""
    requires GenerateVideo(job, env).result.Ok?
    ensures var p := GenerateVideo(job, env).result.value;
            forall i :: 0 <= i < |p.scenes| ==>
              && p.scenes[i].visual.visual == DarkPlaceholder
              && p.scenes[i].visual.size == TargetSize(job.aspect)
              && (p.scenes[i].caption.Some? ==>
                    p.scenes[i].caption.value.anchor == Center
                    && p.scenes[i].caption.value.color == JString(DefaultColor))
  {
    var ss := Sentences(job.script);
    var d := env.narration.value;
    ScenesWithoutKeys(ss, Durations(ss, d), job, env, TargetSize(job.aspect), 0);
  }

  /** Every exit path removes exactly the audio temp files whose paths were
      assigned: the narration file whenever narration was obtained, the
      music file whenever music bytes were written out. */
  lemma CleanupOnEveryPath(job: Job, env: Env)
    ensures var o := GenerateVideo(job, env);
            && (NarrationFile in o.removed <==> |job.voiceover| > 0 || !env.ttsRaises)
            && (MusicFile in o.removed ==> |job.music| > 0)
            && (o.result.Ok? ==> o.removed == {NarrationFile} + (if |job.music| > 0 then {MusicFile} else {}))
            && (o.result.Err? && o.result.error == EncodingFailed ==> (MusicFile in o.removed <==> |job.music| > 0))
  {
    var b := RunBody(job, env);
    if b.musicBound {
      var d := env.narration.value;
      var f := Finish(NarrationOf(job, env).value, Timeline(job, env, d).value, d, job, env);
      assert b.created == f.created;
    } else if NarrationOf(job, env).Some? {
      assert b.created == {NarrationFile};
    } else {
      assert b.created == {};
    }
  }

  /** The job raises only for the reasons the body can raise; a failed
      hardware write alone never makes it raise. */
  lemma EncodingFailureNeedsBothWrites(job: Job, env: Env)
    requires GenerateVideo(job, env).result.Err? && GenerateVideo(job, env).result.error == EncodingFailed
    ensures !EncodeAsWritten(SelectProfile(DeviceName(env.probe), env.listing), env.succeeds).ok
  {
  }

  /** When no scene's keyword extraction raises, the scene loop completes. */
  lemma {:induction false} ScenesComplete(ss: seq<string>, ds: seq<real>, job: Job, env: Env, target: Size, k: nat)
    requires |ds| == |ss| && Positive(target)
    requires forall i :: k <= i < k + |ss| ==> !env.scene(i).keywordsRaise
    ensures Scenes(ss, ds, job, env, target, k).Ok?
    decreases |ss|
  {
    if ss != [] {
      assert !env.scene(k).keywordsRaise;
      ScenesComplete(ss[1..], ds[1..], job, env, target, k + 1);
    }
  }

  /** A job whose narration decodes and whose scenes all get keywords
      produces a video exactly when the encoding does not fail. */
  lemma ProducedUnlessEncodingFails(job: Job, env: Env)
    requires NarrationOf(job, env).Some? && env.narration.Some? && Sentences(job.script) != []
    requires forall i :: 0 <= i < |Sentences(job.script)| ==> !env.scene(i).keywordsRaise
    ensures GenerateVideo(job, env).result.Ok?
            <==> EncodeAsWritten(SelectProfile(DeviceName(env.probe), env.listing), env.succeeds).ok
  {
    var ss := Sentences(job.script);
    var d := env.narration.value;
    ScenesComplete(ss, Durations(ss, d), job, env, TargetSize(job.aspect), 0);
  }

  /** A two-sentence job with synthesized narration reaches the end when
      both scenes get keywords and every write succeeds. */
  lemma TwoScenesProduced(job: Job, env: Env)
    requires |Sentences(job.script)| == 2 && job.voiceover == []
    requires !env.ttsRaises && env.narration.Some?
    requires !env.scene(0).keywordsRaise && !env.scene(1).keywordsRaise
    requires forall n :: env.succeeds(n)
    ensures GenerateVideo(job, env).result.Ok?
  {
    var ss := Sentences(job.script);
    assert forall i :: 0 <= i < |ss| ==> !env.scene(i).keywordsRaise by {
      forall i | 0 <= i < |ss| ensures !env.scene(i).keywordsRaise {
        assert i == 0 || i == 1;
      }
    }
    assert NarrationOf(job, env).Some?;
    CleanRunWritesTwice(SelectProfile(DeviceName(env.probe), env.listing), env.succeeds);
    ProducedUnlessEncodingFails(job, env);
  }

  /** A two-sentence landscape job without keys or music, whose scenes get
      keywords and whose writes succeed, yields two dark placeholder scenes
      at 1920x1080 filling the narration and removes only the narration
      file. */
  lemma TwoPlaceholderScenes(job: Job, env: Env)
    requires |Sentences(job.script)| == 2 && job.aspect == "16:9"
    requires job.voiceover == [] && job.music == []
    requires job.pexelsKey == "" && job.pixabayKey == "" && job.geminiKey == ""
    requires !env.ttsRaises && env.narration.Some?
    requires !env.scene(0).keywordsRaise && !env.scene(1).keywordsRaise
    requires forall n :: env.succeeds(n)
    ensures var o := GenerateVideo(job, env);
            && o.result.Ok?
            && |o.result.value.scenes| == 2
            && o.result.value.duration == env.narration.value
            && (forall i :: 0 <= i < 2 ==>
                  o.result.value.scenes[i].visual.visual == DarkPlaceholder
                  && o.result.value.scenes[i].visual.size == Size(1920.0, 1080.0))
            && o.removed == {NarrationFile}
  {
    TwoScenesProduced(job, env);
    TimelineMatchesNarration(job, env);
    LandscapePlaceholders(job, env);
    NoMusicCleanup(job, env);
  }

  /** A produced job without music removes only the narration file. */
  lemma NoMusicCleanup(job: Job, env: Env)
    requires job.music == [] && GenerateVideo(job, env).result.Ok?
    ensures GenerateVideo(job, env).removed == {NarrationFile}
  {
    CleanupOnEveryPath(job, env);
  }

  /** A produced landscape job without keys shows only dark placeholders
      at 1920x1080. */
  lemma LandscapePlaceholders(job: Job, env: Env)
    requires job.aspect == "16:9"
    requires job.pexelsKey == "" && job.pixabayKey == "" && job.geminiKey == ""
    requires GenerateVideo(job, env).result.Ok?
    ensures var p := GenerateVideo(job, env).result.value;
            forall i :: 0 <= i < |p.scenes| ==>
              p.scenes[i].visual.visual == DarkPlaceholder
              && p.scenes[i].visual.size == Size(1920.0, 1080.0)
  {
    assert TargetSize(job.aspect) == Size(1920.0, 1080.0);
    NoKeysAllPlaceholders(job, env);
  }

  /** The script "A cat sleeps. A dog runs." run without keys or music. */
  lemma CatAndDogScenario(job: Job, env: Env)
    requires job.script == "A cat sleeps. A dog runs." && job.aspect == "16:9"
    requires job.voiceover == [] && job.music == []
    requires job.pexelsKey == "" && job.pixabayKey == "" && job.geminiKey == ""
    requires !env.ttsRaises && env.narration.Some?
    requires !env.scene(0).keywordsRaise && !env.scene(1).keywordsRaise
    requires forall n :: env.succeeds(n)
    ensures var p := GenerateVideo(job, env).result;
            && p.Ok?
            && |p.value.scenes| == 2
            && p.value.scenes[0].visual.visual == DarkPlaceholder
            && p.value.scenes[1].visual.visual == DarkPlaceholder
  {
    TwoSentenceScript();
    TwoPlaceholderScenes(job, env);
  }

  // ---- the cleanup finding ----

  /** As written, a job whose speech synthesis fails reports the unbound
      `bg_music_path` instead of the synthesis error. */
  lemma TtsFailureMasked(job: Job, env: Env)
    requires |job.voiceover| == 0 && env.ttsRaises
    ensures GenerateVideoAsWritten(job, env).result == Err(UnboundMusicPath)
    ensures GenerateVideo(job, env).result == Err(NarrationFailed)
  {
  }

  /** In general the written cleanup loses the error of every failure
      raised before the music block, and only those; the corrected cleanup
      always reports the body's own error. */
  lemma EarlyErrorsMasked(job: Job, env: Env)
    ensures var b := RunBody(job, env);
            && (GenerateVideoAsWritten(job, env) != GenerateVideo(job, env) <==> !b.musicBound)
            && GenerateVideo(job, env).result == b.result
            && GenerateVideo(job, env).result != Err(UnboundMusicPath)
  {
  }
}

=== FILE: segmenter.dfy ===
/** Script segmentation and timing in `generate_video`: the script is split
    with `re.split(r'(?<=[.!?]) +', script)`, every fragment is stripped,
    empty ones are dropped, and each sentence gets a share of the narration
    duration proportional to its length. */
module Segmenter {
  import opened Text
  import opened Seqs

  predicate IsTerminator(c: char) {
    c == '.' || c == '!' || c == '?'
  }

  /** The split pattern matches at `i`: a space right after `.`, `!` or `?`. */
  predicate SplitsAt(s: string, i: int) {
    0 < i < |s| && IsTerminator(s[i - 1]) && s[i] == ' '
  }

  predicate AllBlanks(s: string) {
    forall i :: 0 <= i < |s| ==> s[i] == ' '
  }

  /** One fragment of the split, with the run of spaces the pattern consumed
      after it (empty for the last fragment). */
  datatype Piece = Piece(text: string, gap: string)

  /** The least split point at or after `i`, or `|s|` when there is none. */
  function FirstSplit(s: string, i: nat): (k: nat)
    requires i <= |s|
    ensures i <= k <= |s|
    ensures k < |s| ==> SplitsAt(s, k)
    ensures forall m :: i <= m < k ==> !SplitsAt(s, m)
    decreases |s| - i
  {
    if i == |s| || SplitsAt(s, i) then i else FirstSplit(s, i + 1)
  }

  /** End of the run of spaces starting at `i` (the greedy ` +`). */
  function SpaceRun(s: string, i: nat): (j: nat)
    requires i <= |s|
    ensures i <= j <= |s|
    ensures AllBlanks(s[i..j])
    ensures j < |s| ==> s[j] != ' '
    decreases |s| - i
  {
    if i < |s| && s[i] == ' ' then
      var j := SpaceRun(s, i + 1);
      assert s[i..j] == [s[i]] + s[i + 1..j];
      j
    else i
  }

  /** Gluing the fragments back together with the consumed gaps. */
  function Flatten(ps: seq<Piece>): string {
    if ps == [] then [] else ps[0].text + ps[0].gap + Flatten(ps[1..])
  }

  /** The pieces are what `re.split` can return for the pattern: every gap
      but the last is a maximal run of spaces preceded by a terminator, the
      last gap is empty, and no fragment holds an unsplit split point. */
  ghost predicate WellSplit(ps: seq<Piece>) {
    && |ps| >= 1
    && ps[|ps| - 1].gap == []
    && (forall k :: 0 <= k < |ps| - 1 ==>
          |ps[k].gap| > 0 && AllBlanks(ps[k].gap)
          && |ps[k].text| > 0 && IsTerminator(ps[k].text[|ps[k].text| - 1]))
    && (forall k :: 1 <= k < |ps| ==> ps[k].text == [] || ps[k].text[0] != ' ')
    && (forall k, i :: 0 <= k < |ps| ==> !SplitsAt(ps[k].text, i))
  }

  /** `re.split(r'(?<=[.!?]) +', s)`, keeping the separators. The pattern
      cannot match at index 0, so scanning the rest after a gap is the same
      as scanning the remainder as a fresh string. */
  function Split(s: string): (ps: seq<Piece>)
    ensures Flatten(ps) == s
    ensures WellSplit(ps)
    ensures s != [] && s[0] != ' ' ==> ps[0].text == [] || ps[0].text[0] != ' '
    decreases |s|
  {
    var k := FirstSplit(s, 0);
    if k == |s| then
      NoSplitInside(s, k);
      [Piece(s, [])]
    else
      var j := SpaceRun(s, k);
      var rest := Split(s[j..]);
      var head := Piece(s[..k], s[k..j]);
      NoSplitInside(s, k);
      SplitCons(s, k, j, rest);
      [head] + rest
  }

  /** No split point lies strictly before the first one. */
  lemma NoSplitInside(s: string, k: nat)
    requires k == FirstSplit(s, 0)
    ensures forall i :: !SplitsAt(s[..k], i)
  {
    forall i
      ensures !SplitsAt(s[..k], i)
    {
      if 0 < i < k {
        assert !SplitsAt(s, i);
      }
    }
  }

  /** Putting the first fragment and its gap in front of the split of the
      remainder keeps the split well formed and flattening exact. */
  lemma SplitCons(s: string, k: nat, j: nat, rest: seq<Piece>)
    requires k == FirstSplit(s, 0) && k < |s|
    requires j == SpaceRun(s, k)
    requires Flatten(rest) == s[j..] && WellSplit(rest)
    requires s[j..] != [] && s[j..][0] != ' ' ==> rest[0].text == [] || rest[0].text[0] != ' '
    requires forall i :: !SplitsAt(s[..k], i)
    ensures var ps := [Piece(s[..k], s[k..j])] + rest;
            Flatten(ps) == s && WellSplit(ps)
            && (s[0] != ' ' ==> ps[0].text == [] || ps[0].text[0] != ' ')
  {
    var head := Piece(s[..k], s[k..j]);
    var ps := [head] + rest;
    assert ps[1..] == rest;
    assert s == s[..k] + s[k..j] + s[j..];
    assert j > k;
    assert rest[0].text == [] || rest[0].text[0] != ' ' by {
      if s[j..] == [] {
        assert Flatten(rest) == [];
        FlattenEmpty(rest);
      }
    }
    WellSplitCons(head, rest);
  }

  /** A fragment ending in a terminator, followed by a run of spaces, can be
      put in front of a well-formed split whose first fragment does not
      start with a space. */
  lemma WellSplitCons(head: Piece, rest: seq<Piece>)
    requires WellSplit(rest)
    requires |head.gap| > 0 && AllBlanks(head.gap)
    requires |head.text| > 0 && IsTerminator(head.text[|head.text| - 1])
    requires forall i :: !SplitsAt(head.text, i)
    requires rest[0].text == [] || rest[0].text[0] != ' '
    ensures WellSplit([head] + rest)
  {
    var ps := [head] + rest;
    forall m | 1 <= m < |ps|
      ensures ps[m] == rest[m - 1]
    {
    }
  }

  /** A split that flattens to nothing has an empty first fragment. */
  lemma FlattenEmpty(ps: seq<Piece>)
    requires |ps| > 0 && Flatten(ps) == []
    ensures ps[0].text == []
  {
    assert Flatten(ps) == ps[0].text + ps[0].gap + Flatten(ps[1..]);
  }

  /** Indices of the fragments that survive `[s.strip() for s in ... if s.strip()]`,
      from index `i` on. */
  function KeptFrom(ps: seq<Piece>, i: nat): (idx: seq<nat>)
    requires i <= |ps|
    ensures forall k :: 0 <= k < |idx| ==> i <= idx[k] < |ps| && !AllSpace(ps[idx[k]].text)
    ensures forall k, l :: 0 <= k < l < |idx| ==> idx[k] < idx[l]
    ensures forall m :: i <= m < |ps| && !AllSpace(ps[m].text) ==> m in idx
    decreases |ps| - i
  {
    if i == |ps| then []
    else
      var rest := KeptFrom(ps, i + 1);
      if !AllSpace(ps[i].text) then
        var idx := [i] + rest;
        forall k | 1 <= k < |idx|
          ensures idx[k] == rest[k - 1]
        {
          ConsIndex(i, rest, k);
        }
        idx
      else rest
  }

  /** The sentences of a script, in order. */
  function Sentences(script: string): (ss: seq<string>)
    ensures forall k :: 0 <= k < |ss| ==> ss[k] != [] && IsStripped(ss[k])
  {
    var ps := Split(script);
    StripKept(ps, KeptFrom(ps, 0))
  }

  /** The stripped texts of the kept fragments. */
  function StripKept(ps: seq<Piece>, idx: seq<nat>): (ss: seq<string>)
    requires forall k :: 0 <= k < |idx| ==> idx[k] < |ps| && !AllSpace(ps[idx[k]].text)
    ensures |ss| == |idx|
    ensures forall k :: 0 <= k < |ss| ==> ss[k] != [] && IsStripped(ss[k])
  {
    seq(|idx|, k requires 0 <= k < |idx| => Strip(ps[idx[k]].text))
  }

  /** Each sentence is a stripped fragment of the split, the fragments used
      appear in increasing order, and every fragment not used is blank. */
  lemma SentencesInScriptOrder(script: string)
    ensures var ps := Split(script);
            var ss := Sentences(script);
            var idx := KeptFrom(ps, 0);
            && |idx| == |ss|
            && (forall k :: 0 <= k < |ss| ==> idx[k] < |ps| && ss[k] == Strip(ps[idx[k]].text))
            && (forall k, l :: 0 <= k < l < |idx| ==> idx[k] < idx[l])
            && (forall m :: 0 <= m < |ps| && m !in idx ==> AllSpace(ps[m].text))
  {
    var ps := Split(script);
    var idx := KeptFrom(ps, 0);
    var ss := Sentences(script);
    assert |ss| == |idx|;
    forall k | 0 <= k < |ss|
      ensures ss[k] == Strip(ps[idx[k]].text)
    {
    }
  }

  /** A script made only of whitespace (or empty) has no sentence. */
  lemma BlankScriptHasNoSentence(script: string)
    requires AllSpace(script)
    ensures Sentences(script) == []
  {
    var ps := Split(script);
    forall m | 0 <= m < |ps|
      ensures AllSpace(ps[m].text)
    {
      FlattenCovers(ps, m);
      var off := FlattenOffset(ps, m);
      AllSpaceSlice(script, off, off + |ps[m].text|);
    }
    NothingKept(ps, 0);
  }

  /** Blank fragments are all dropped. */
  lemma {:induction false} NothingKept(ps: seq<Piece>, i: nat)
    requires i <= |ps|
    requires forall m :: i <= m < |ps| ==> AllSpace(ps[m].text)
    ensures KeptFrom(ps, i) == []
    decreases |ps| - i
  {
    if i < |ps| {
      NothingKept(ps, i + 1);
    }
  }

  /** Where piece `m` starts inside the flattened string. */
  function FlattenOffset(ps: seq<Piece>, m: nat): nat
    requires m <= |ps|
  {
    if m == 0 then 0 else |ps[0].text| + |ps[0].gap| + FlattenOffset(ps[1..], m - 1)
  }

  /** Piece `m`'s text sits at its offset in the flattened string. */
  lemma {:induction false} FlattenCovers(ps: seq<Piece>, m: nat)
    requires m < |ps|
    ensures FlattenOffset(ps, m) + |ps[m].text| <= |Flatten(ps)|
    ensures Flatten(ps)[FlattenOffset(ps, m)..FlattenOffset(ps, m) + |ps[m].text|] == ps[m].text
  {
    var f := Flatten(ps);
    var h := ps[0].text + ps[0].gap;
    assert f == h + Flatten(ps[1..]);
    if m > 0 {
      FlattenCovers(ps[1..], m - 1);
      var o := FlattenOffset(ps[1..], m - 1);
      assert f[|h| + o..|h| + o + |ps[m].text|] == Flatten(ps[1..])[o..o + |ps[m].text|];
    } else {
      assert f[..|ps[0].text|] == ps[0].text;
    }
  }

  /** Python's `sum(len(s) for s in sentences)`. */
  function TotalChars(ss: seq<string>): nat {
    if ss == [] then 0 else |ss[0]| + TotalChars(ss[1..])
  }

  function Sum(xs: seq<real>): real {
    if xs == [] then 0.0 else xs[0] + Sum(xs[1..])
  }

  /** `(len(s) / total) * duration` for each sentence. */
  function Shares(ss: seq<string>, total: nat, duration: real): (ds: seq<real>)
    requires total > 0
    ensures |ds| == |ss|
  {
    if ss == [] then []
    else [(|ss[0]| as real / total as real) * duration] + Shares(ss[1..], total, duration)
  }

  /** Scene durations: the narration time split by character count. */
  function Durations(ss: seq<string>, duration: real): (ds: seq<real>)
    requires forall k :: 0 <= k < |ss| ==> ss[k] != []
    ensures |ds| == |ss|
    ensures ss != [] ==> TotalChars(ss) > 0
    ensures forall k :: 0 <= k < |ds| ==> ds[k] == (|ss[k]| as real / TotalChars(ss) as real) * duration
  {
    if ss == [] then [] else
    assert TotalChars(ss) >= |ss[0]| > 0;
    SharesAll(ss, TotalChars(ss), duration);
    Shares(ss, TotalChars(ss), duration)
  }

  lemma {:induction false} SharesSum(ss: seq<string>, total: nat, duration: real)
    requires total > 0
    ensures Sum(Shares(ss, total, duration)) == (TotalChars(ss) as real / total as real) * duration
  {
    if ss != [] {
      SharesSum(ss[1..], total, duration);
      var a := |ss[0]| as real;
      var b := TotalChars(ss[1..]) as real;
      var t := total as real;
      assert (a / t) * duration + (b / t) * duration == ((a + b) / t) * duration;
    }
  }

  lemma SharesAll(ss: seq<string>, total: nat, duration: real)
    requires total > 0
    ensures forall k :: 0 <= k < |ss| ==> Shares(ss, total, duration)[k] == (|ss[k]| as real / total as real) * duration
  {
    forall k | 0 <= k < |ss| {
      SharesEach(ss, total, duration, k);
    }
  }

  lemma {:induction false} SharesEach(ss: seq<string>, total: nat, duration: real, k: nat)
    requires total > 0 && k < |ss|
    ensures Shares(ss, total, duration)[k] == (|ss[k]| as real / total as real) * duration
  {
    if k > 0 {
      SharesEach(ss[1..], total, duration, k - 1);
    }
  }

  /** Each duration is the sentence's share of the narration: its length
      over the total length, times the duration. */
  lemma DurationShare(ss: seq<string>, duration: real, k: nat)
    requires forall k :: 0 <= k < |ss| ==> ss[k] != []
    requires k < |ss|
    ensures TotalChars(ss) > 0
    ensures Durations(ss, duration)[k] == (|ss[k]| as real / TotalChars(ss) as real) * duration
  {
    assert TotalChars(ss) >= |ss[0]| > 0;
    SharesEach(ss, TotalChars(ss), duration, k);
  }

  /** The durations add up to exactly the narration duration. */
  lemma DurationsSum(ss: seq<string>, duration: real)
    requires |ss| > 0
    requires forall k :: 0 <= k < |ss| ==> ss[k] != []
    ensures Sum(Durations(ss, duration)) == duration
  {
    var t := TotalChars(ss);
    assert t >= |ss[0]| > 0;
    SharesSum(ss, t, duration);
    assert (t as real / t as real) == 1.0;
  }

  /** No scene gets a negative duration from a non-negative narration. */
  lemma DurationsNonNegative(ss: seq<string>, duration: real)
    requires forall k :: 0 <= k < |ss| ==> ss[k] != []
    requires duration >= 0.0
    ensures forall k :: 0 <= k < |ss| ==> Durations(ss, duration)[k] >= 0.0
  {
    forall k | 0 <= k < |ss|
      ensures Durations(ss, duration)[k] >= 0.0
    {
      DurationShare(ss, duration, k);
      var a := |ss[k]| as real / TotalChars(ss) as real;
      assert a >= 0.0;
      assert a * duration >= 0.0;
    }
  }

  /** `FirstSplit` finds exactly the least split point. */
  lemma {:induction false} FirstSplitIs(s: string, i: nat, k: nat)
    requires i <= k <= |s|
    requires forall m :: i <= m < k ==> !SplitsAt(s, m)
    requires k == |s| || SplitsAt(s, k)
    ensures FirstSplit(s, i) == k
    decreases k - i
  {
    if i < k {
      FirstSplitIs(s, i + 1, k);
    }
  }

  /** Non-blank fragments are all kept, each exactly once, in order. */
  lemma {:induction false} KeepAll(ps: seq<Piece>, i: nat)
    requires i <= |ps|
    requires forall m :: i <= m < |ps| ==> !AllSpace(ps[m].text)
    ensures |KeptFrom(ps, i)| == |ps| - i
    ensures forall k :: 0 <= k < |ps| - i ==> KeptFrom(ps, i)[k] == i + k
    decreases |ps| - i
  {
    if i < |ps| {
      KeepAll(ps, i + 1);
      var rest := KeptFrom(ps, i + 1);
      assert KeptFrom(ps, i) == [i] + rest;
    }
  }

  /** When no fragment is blank and each is already stripped, the sentences
      are exactly the fragments' texts. */
  lemma CleanFragments(ps: seq<Piece>)
    requires forall m :: 0 <= m < |ps| ==> !AllSpace(ps[m].text) && IsStripped(ps[m].text)
    ensures |StripKept(ps, KeptFrom(ps, 0))| == |ps|
    ensures forall k :: 0 <= k < |ps| ==> StripKept(ps, KeptFrom(ps, 0))[k] == ps[k].text
  {
    KeepAll(ps, 0);
    var ss := StripKept(ps, KeptFrom(ps, 0));
    forall k | 0 <= k < |ps| ensures ss[k] == ps[k].text {
      StripStripped(ps[k].text);
    }
  }

  lemma CleanPair(ps: seq<Piece>, a: string, b: string)
    requires ps == [Piece(a, " "), Piece(b, "")]
    requires !AllSpace(a) && IsStripped(a) && !AllSpace(b) && IsStripped(b)
    ensures StripKept(ps, KeptFrom(ps, 0)) == [a, b]
  {
    CleanFragments(ps);
  }

  /** When `re.split` yields two clean fragments, they are the sentences. */
  lemma SentencesOfPair(s: string, a: string, b: string)
    requires Split(s) == [Piece(a, " "), Piece(b, "")]
    requires !AllSpace(a) && IsStripped(a) && !AllSpace(b) && IsStripped(b)
    ensures Sentences(s) == [a, b]
  {
    CleanPair(Split(s), a, b);
  }

  /** One step of `Split` when the text has a split point. */
  lemma SplitUnfold(s: string, k: nat, j: nat)
    requires k == FirstSplit(s, 0) && k < |s| && j == SpaceRun(s, k)
    ensures Split(s) == [Piece(s[..k], s[k..j])] + Split(s[j..])
  {
  }

  lemma SplitOfExample()
    ensures FirstSplit("A cat sleeps. A dog runs.", 0) == 13
    ensures SpaceRun("A cat sleeps. A dog runs.", 13) == 14
    ensures Split("A dog runs.") == [Piece("A dog runs.", "")]
  {
    ExampleFirstSplit();
    ExampleTail();
    ExampleSpaceRun();
  }

  lemma ExampleSpaceRun()
    ensures SpaceRun("A cat sleeps. A dog runs.", 13) == 14
  {
    var s := "A cat sleeps. A dog runs.";
    assert s[13] == ' ' && s[14] == 'A';
    assert SpaceRun(s, 14) == 14;
  }

  lemma ExampleFirstSplit()
    ensures FirstSplit("A cat sleeps. A dog runs.", 0) == 13
  {
    var s := "A cat sleeps. A dog runs.";
    assert forall m :: 0 <= m < 12 ==> !IsTerminator(s[m]);
    FirstSplitIs(s, 0, 13);
  }

  lemma ExampleTail()
    ensures Split("A dog runs.") == [Piece("A dog runs.", "")]
  {
    var r := "A dog runs.";
    assert forall m :: 0 <= m < |r| - 1 ==> !IsTerminator(r[m]);
    FirstSplitIs(r, 0, |r|);
  }

  lemma ExampleSlices()
    ensures var s := "A cat sleeps. A dog runs.";
            s[..13] == "A cat sleeps." && s[13..14] == " " && s[14..] == "A dog runs."
  {
  }

  lemma CleanExampleSentences()
    ensures !AllSpace("A cat sleeps.") && IsStripped("A cat sleeps.")
    ensures !AllSpace("A dog runs.") && IsStripped("A dog runs.")
  {
    var a := "A cat sleeps.";
    var b := "A dog runs.";
    VisibleAsciiNotSpace(a[0]);
    VisibleAsciiNotSpace(a[|a| - 1]);
    VisibleAsciiNotSpace(b[0]);
    VisibleAsciiNotSpace(b[|b| - 1]);
  }

  /** The two-sentence script `"A cat sleeps. A dog runs."` yields exactly
      two scenes, in order. */
  lemma TwoSentenceScript()
    ensures Sentences("A cat sleeps. A dog runs.") == ["A cat sleeps.", "A dog runs."]
  {
    ExampleSplit();
    CleanExampleSentences();
    SentencesOfPair("A cat sleeps. A dog runs.", "A cat sleeps.", "A dog runs.");
  }

  lemma ExampleSplit()
    ensures Split("A cat sleeps. A dog runs.") == [Piece("A cat sleeps.", " "), Piece("A dog runs.", "")]
  {
    SplitOfExample();
    ExampleSlices();
    SplitUnfold("A cat sleeps. A dog runs.", 13, 14);
  }
}

=== FILE: seqs.dfy ===
/** General facts about sequences used by the proofs. */
module Seqs {

  /** Indexing past the head of `[x] + xs` reads `xs`. */
  lemma ConsIndex<T>(x: T, xs: seq<T>, i: int)
    requires 1 <= i <= |xs|
    ensures ([x] + xs)[i] == xs[i - 1]
  {
  }

  /** The first element of a suffix is the element at the cut. */
  lemma SuffixHead<T>(s: seq<T>, i: nat)
    requires i < |s|
    ensures s[i..][0] == s[i]
  {
  }

  /** A slice of a suffix is a slice of the whole, shifted by the cut. */
  lemma SliceOfSuffix<T>(s: seq<T>, d: nat, a: nat, b: nat)
    requires d <= |s| && a <= b <= |s| - d
    ensures s[d..][a..b] == s[d + a..d + b]
  {
  }

  /** The indices `m >= i` whose element satisfies `p`, in increasing
      order: the positions a list comprehension `[.. for x in xs if p(x)]`
      draws from. */
  function IndicesFrom<T>(xs: seq<T>, p: T -> bool, i: nat): (idx: seq<nat>)
    requires i <= |xs|
    ensures forall k :: 0 <= k < |idx| ==> i <= idx[k] < |xs| && p(xs[idx[k]])
    ensures forall k, l :: 0 <= k < l < |idx| ==> idx[k] < idx[l]
    ensures forall m :: i <= m < |xs| && p(xs[m]) ==> m in idx
    decreases |xs| - i
  {
    if i == |xs| then []
    else
      var rest := IndicesFrom(xs, p, i + 1);
      if p(xs[i]) then
        var idx := [i] + rest;
        forall k | 1 <= k < |idx|
          ensures idx[k] == rest[k - 1]
        {
          ConsIndex(i, rest, k);
        }
        idx
      else rest
  }
}

=== FILE: sourcing.dfy ===
/** Content sourcing for one scene in `generate_video`: stock candidates
    from Pexels and Pixabay, shuffled, tried in order; then an AI image when
    a Gemini key is set; then a solid placeholder. Network calls, decoding
    and the random generator are oracle inputs. */
module Sourcing {
  import opened Wrappers
  import opened Text
  import opened Geometry
  import opened Seqs
  import Styling

  // ---- Pexels: the widest file of each video ----

  /** One entry of a Pexels video's `video_files`; `width` and `link` may be
      missing from the JSON. */
  datatype VideoFile = VideoFile(width: Option<int>, link: Option<string>)

  /** `x.get('width', 0)`. */
  function WidthOf(f: VideoFile): int {
    f.width.GetOr(0)
  }

  /** The file `video_files.sort(key=width, reverse=True)[0]` picks: Python's
      sort is stable, so it is the first file of greatest width. */
  function Widest(files: seq<VideoFile>): (k: nat)
    requires |files| > 0
    ensures k < |files|
    ensures forall j :: 0 <= j < |files| ==> WidthOf(files[j]) <= WidthOf(files[k])
    ensures forall j :: 0 <= j < k ==> WidthOf(files[j]) < WidthOf(files[k])
  {
    WidestFrom(files, 0, 1)
  }

  function WidestFrom(files: seq<VideoFile>, best: nat, i: nat): (k: nat)
    requires best < i <= |files|
    requires forall j :: 0 <= j < i ==> WidthOf(files[j]) <= WidthOf(files[best])
    requires forall j :: 0 <= j < best ==> WidthOf(files[j]) < WidthOf(files[best])
    ensures k < |files|
    ensures forall j :: 0 <= j < |files| ==> WidthOf(files[j]) <= WidthOf(files[k])
    ensures forall j :: 0 <= j < k ==> WidthOf(files[j]) < WidthOf(files[k])
    decreases |files| - i
  {
    if i == |files| then best
    else if WidthOf(files[i]) > WidthOf(files[best]) then WidestFrom(files, i, i + 1)
    else WidestFrom(files, best, i + 1)
  }

  /** The URL list built by `fetch_pexels_videos` from the parsed `videos`
      array; `None` when a picked file has no `link` (the `KeyError` is
      caught and the function returns `[]`). */
  function PexelsPick(videos: seq<seq<VideoFile>>): (r: Option<seq<string>>)
    ensures r.None? <==> exists i :: 0 <= i < |videos| && |videos[i]| > 0 && videos[i][Widest(videos[i])].link.None?
    ensures r.Some? ==> |r.value| == NonEmpty(videos)
    ensures r.Some? ==> forall u :: u in r.value ==> exists i :: 0 <= i < |videos| && |videos[i]| > 0 && videos[i][Widest(videos[i])].link == Some(u)
  {
    if videos == [] then Some([])
    else
      var rest := PexelsPick(videos[1..]);
      assert forall i :: 1 <= i < |videos| ==> videos[i] == videos[1..][i - 1];
      if |videos[0]| == 0 then rest
      else match videos[0][Widest(videos[0])].link
        case None => None
        case Some(u) =>
          match rest
          case None => None
          case Some(us) => Some([u] + us)
  }

  /** Number of videos with at least one file. */
  function NonEmpty(videos: seq<seq<VideoFile>>): nat {
    if videos == [] then 0 else (if |videos[0]| > 0 then 1 else 0) + NonEmpty(videos[1..])
  }

  /** A video that has at least one file contributes a URL. */
  predicate HasFiles(files: seq<VideoFile>) {
    |files| > 0
  }

  /** The `link` of the file the sort puts first. */
  function LinkOf(files: seq<VideoFile>): Option<string>
    requires |files| > 0
  {
    files[Widest(files)].link
  }

  /** The list itself: the j-th URL is the widest file's link of the j-th
      video that has files, in the order of the response. */
  lemma PexelsPickInOrder(videos: seq<seq<VideoFile>>)
    ensures var r := PexelsPick(videos);
            var ix := IndicesFrom(videos, HasFiles, 0);
            r.Some? ==> |r.value| == |ix| && forall j :: 0 <= j < |ix| ==> LinkOf(videos[ix[j]]) == Some(r.value[j])
  {
    PexelsPickFrom(videos, 0);
    assert videos[0..] == videos;
  }

  lemma {:induction false} PexelsPickFrom(videos: seq<seq<VideoFile>>, i: nat)
    requires i <= |videos|
    ensures var r := PexelsPick(videos[i..]);
            var ix := IndicesFrom(videos, HasFiles, i);
            r.Some? ==> |r.value| == |ix| && forall j :: 0 <= j < |ix| ==> LinkOf(videos[ix[j]]) == Some(r.value[j])
    decreases |videos| - i
  {
    if i < |videos| {
      var t := videos[i..];
      assert t[0] == videos[i] && t[1..] == videos[i + 1..];
      PexelsPickFrom(videos, i + 1);
      var rest := IndicesFrom(videos, HasFiles, i + 1);
      if HasFiles(videos[i]) {
        var r := PexelsPick(t);
        if r.Some? {
          var us := PexelsPick(videos[i + 1..]).value;
          assert r.value == [r.value[0]] + us;
          forall j | 1 <= j < 1 + |rest|
            ensures LinkOf(videos[([i] + rest)[j]]) == Some(r.value[j])
          {
            ConsIndex(i, rest, j);
            ConsIndex(r.value[0], us, j);
          }
        }
      }
    } else {
      assert videos[i..] == [];
    }
  }

  /** `fetch_pexels_videos`: nothing without a key or when the request or
      its parsing failed (`response` is `None`). */
  function PexelsUrls(key: string, response: Option<seq<seq<VideoFile>>>): (r: seq<string>)
    ensures key == "" || response.None? ==> r == []
    ensures key != "" && response.Some? && PexelsPick(response.value).None? ==> r == []
    ensures key != "" && response.Some? && PexelsPick(response.value).Some? ==> |r| == NonEmpty(response.value)
    ensures key != "" && response.Some? && PexelsPick(response.value).Some? ==> r == PexelsPick(response.value).value
  {
    if key == "" then []
    else match response
      case None => []
      case Some(videos) => PexelsPick(videos).GetOr([])
  }

  // ---- Pixabay: `large` before `medium` ----

  /** One rendition entry of a Pixabay hit; its `url` may be missing. */
  datatype Rendition = Rendition(url: Option<string>)

  datatype PixabayHit = PixabayHit(large: Option<Rendition>, medium: Option<Rendition>)

  /** What one hit contributes: nothing, a URL, or a raised `KeyError`. */
  datatype Pick = Skip | Take(url: string) | Missing

  function RenditionPick(r: Rendition): Pick {
    match r.url
    case Some(u) => Take(u)
    case None => Missing
  }

  /** `large` when present, else `medium` when present, else nothing. */
  function HitPick(h: PixabayHit): (r: Pick)
    ensures r == Skip <==> h.large.None? && h.medium.None?
    ensures r.Take? ==> if h.large.Some? then h.large.value.url == Some(r.url)
                        else h.medium.Some? && h.medium.value.url == Some(r.url)
    ensures r == Missing <==> if h.large.Some? then h.large.value.url.None?
                              else h.medium.Some? && h.medium.value.url.None?
  {
    match h.large
    case Some(r) => RenditionPick(r)
    case None =>
      match h.medium
      case Some(r) => RenditionPick(r)
      case None => Skip
  }

  /** A hit that has a `large` rendition never looks at `medium`. */
  lemma LargePreferred(h: PixabayHit, other: Option<Rendition>)
    requires h.large.Some?
    ensures HitPick(h) == HitPick(h.(medium := other))
    ensures HitPick(h) != Skip
  {
  }

  /** The URL list built by `fetch_pixabay_videos` from the parsed `hits`. */
  function PixabayPick(hits: seq<PixabayHit>): (r: Option<seq<string>>)
    ensures r.None? <==> exists i :: 0 <= i < |hits| && HitPick(hits[i]) == Missing
    ensures r.Some? ==> forall u :: u in r.value ==> exists i :: 0 <= i < |hits| && HitPick(hits[i]) == Take(u)
    ensures r.Some? ==> |r.value| <= |hits|
  {
    if hits == [] then Some([])
    else
      var rest := PixabayPick(hits[1..]);
      assert forall i :: 1 <= i < |hits| ==> hits[i] == hits[1..][i - 1];
      match HitPick(hits[0])
      case Missing => None
      case Skip => rest
      case Take(u) =>
        match rest
        case None => None
        case Some(us) => Some([u] + us)
  }

  /** A hit that contributes something: it has a `large` or `medium` entry. */
  predicate Contributes(h: PixabayHit) {
    HitPick(h) != Skip
  }

  /** The list itself: the j-th URL is the chosen rendition's URL of the
      j-th hit that has a `large` or `medium` entry, in the order of the
      response. */
  lemma PixabayPickInOrder(hits: seq<PixabayHit>)
    ensures var r := PixabayPick(hits);
            var ix := IndicesFrom(hits, Contributes, 0);
            r.Some? ==> |r.value| == |ix| && forall j :: 0 <= j < |ix| ==> HitPick(hits[ix[j]]) == Take(r.value[j])
  {
    PixabayPickFrom(hits, 0);
    assert hits[0..] == hits;
  }

  lemma {:induction false} PixabayPickFrom(hits: seq<PixabayHit>, i: nat)
    requires i <= |hits|
    ensures var r := PixabayPick(hits[i..]);
            var ix := IndicesFrom(hits, Contributes, i);
            r.Some? ==> |r.value| == |ix| && forall j :: 0 <= j < |ix| ==> HitPick(hits[ix[j]]) == Take(r.value[j])
    decreases |hits| - i
  {
    if i < |hits| {
      var t := hits[i..];
      assert t[0] == hits[i] && t[1..] == hits[i + 1..];
      PixabayPickFrom(hits, i + 1);
      var rest := IndicesFrom(hits, Contributes, i + 1);
      if Contributes(hits[i]) {
        var r := PixabayPick(t);
        if r.Some? {
          var us := PixabayPick(hits[i + 1..]).value;
          assert r.value == [r.value[0]] + us;
          forall j | 1 <= j < 1 + |rest|
            ensures HitPick(hits[([i] + rest)[j]]) == Take(r.value[j])
          {
            ConsIndex(i, rest, j);
            ConsIndex(r.value[0], us, j);
          }
        }
      }
    } else {
      assert hits[i..] == [];
    }
  }

  function PixabayUrls(key: string, response: Option<seq<PixabayHit>>): (r: seq<string>)
    ensures key == "" || response.None? ==> r == []
    ensures key != "" && response.Some? && PixabayPick(response.value).None? ==> r == []
    ensures key != "" && response.Some? && PixabayPick(response.value).Some? ==> r == PixabayPick(response.value).value
    ensures response.Some? ==> forall u :: u in r ==> exists i :: 0 <= i < |response.value| && HitPick(response.value[i]) == Take(u)
  {
    if key == "" then []
    else match response
      case None => []
      case Some(hits) => PixabayPick(hits).GetOr([])
  }

  /** `video_urls`: Pexels results first, then Pixabay, each only when its
      key is set. */
  function Candidates(pexelsKey: string, pexels: Option<seq<seq<VideoFile>>>,
                      pixabayKey: string, pixabay: Option<seq<PixabayHit>>): (c: seq<string>)
    ensures pexelsKey == "" && pixabayKey == "" ==> c == []
    ensures pexelsKey == "" ==> c == PixabayUrls(pixabayKey, pixabay)
    ensures pixabayKey == "" ==> c == PexelsUrls(pexelsKey, pexels)
    ensures var n := |PexelsUrls(pexelsKey, pexels)|;
            n <= |c| && c[..n] == PexelsUrls(pexelsKey, pexels) && c[n..] == PixabayUrls(pixabayKey, pixabay)
  {
    PexelsUrls(pexelsKey, pexels) + PixabayUrls(pixabayKey, pixabay)
  }

  // ---- random.shuffle ----

  function Swap<T>(xs: seq<T>, i: nat, j: nat): (ys: seq<T>)
    requires i < |xs| && j < |xs|
    ensures |ys| == |xs|
    ensures multiset(ys) == multiset(xs)
  {
    xs[i := xs[j]][j := xs[i]]
  }

  /** `random.shuffle`: Fisher-Yates from the last index down to 1, swapping
      index `i` with `randbelow(i + 1)`; `draw(i)` stands for the generator's
      output at that step. */
  function ShuffleDown<T>(xs: seq<T>, i: nat, draw: nat -> nat): (ys: seq<T>)
    requires i < |xs|
    ensures |ys| == |xs|
    ensures multiset(ys) == multiset(xs)
    decreases i
  {
    if i == 0 then xs
    else ShuffleDown(Swap(xs, i, draw(i) % (i + 1)), i - 1, draw)
  }

  function Shuffle<T>(xs: seq<T>, draw: nat -> nat): (ys: seq<T>)
    ensures |ys| == |xs|
    ensures multiset(ys) == multiset(xs)
  {
    if |xs| == 0 then xs else ShuffleDown(xs, |xs| - 1, draw)
  }

  // ---- trying candidates ----

  /** What downloading and opening one candidate gave. */
  datatype StockOutcome =
    | DownloadFailed
    | DecodeFailed
    | Decoded(size: Size, duration: real)

  /** The clip survives the whole `try` block: it decoded, and it has a
      real frame to resize (a zero dimension would raise on division). */
  predicate Usable(o: StockOutcome) {
    o.Decoded? && Positive(o.size)
  }

  /** Index of the first candidate that downloads and decodes, or `|urls|`. */
  function FirstUsable(urls: seq<string>, fetch: string -> StockOutcome): (k: nat)
    ensures k <= |urls|
    ensures k < |urls| ==> Usable(fetch(urls[k]))
    ensures forall j :: 0 <= j < k ==> !Usable(fetch(urls[j]))
  {
    if urls == [] then 0
    else if Usable(fetch(urls[0])) then 0
    else 1 + FirstUsable(urls[1..], fetch)
  }

  /** Whether some stock clip is used does not depend on the shuffle. */
  lemma StockFoundAnyOrder(a: seq<string>, b: seq<string>, fetch: string -> StockOutcome)
    requires multiset(a) == multiset(b)
    ensures FirstUsable(a, fetch) < |a| <==> FirstUsable(b, fetch) < |b|
  {
    UsableSomewhere(a, fetch);
    UsableSomewhere(b, fetch);
    forall u
      ensures u in a <==> u in b
    {
      assert u in a <==> u in multiset(a);
      assert u in b <==> u in multiset(b);
    }
  }

  lemma UsableSomewhere(a: seq<string>, fetch: string -> StockOutcome)
    ensures FirstUsable(a, fetch) < |a| <==> exists u :: u in a && Usable(fetch(u))
  {
    var k := FirstUsable(a, fetch);
    if k == |a| {
      forall u | u in a
        ensures !Usable(fetch(u))
      {
        var j :| 0 <= j < |a| && a[j] == u;
      }
    }
  }

  // ---- the AI image fallback ----

  /** What `generate_fallback_image` and `ImageClip` gave for a prompt. */
  datatype ImageOutcome = ImageFailed | ImageDecoded(size: Size)

  /** The oracle results the image fallback depends on. */
  datatype AiEnv = AiEnv(
    configureRaises: bool,
    ask: string -> Styling.ModelReply,
    image: string -> ImageOutcome)

  /** The prompt the image is generated from, when the fallback gets that
      far: a model must answer and its `.text` must not raise. */
  function ImagePrompt(key: string, env: AiEnv): (p: Option<string>)
    ensures var k := Styling.FirstAnswer(Styling.Models, env.ask);
            p.Some? <==> key != "" && !env.configureRaises && k < |Styling.Models| && env.ask(Styling.Models[k]).text.Some?
    ensures p.Some? ==> p.value == Strip(env.ask(Styling.Models[Styling.FirstAnswer(Styling.Models, env.ask)]).text.value)
    ensures p.Some? ==> IsStripped(p.value)
  {
    if key == "" || env.configureRaises then None
    else
      var k := Styling.FirstAnswer(Styling.Models, env.ask);
      if k == |Styling.Models| then None
      else match env.ask(Styling.Models[k]).text
        case None => None
        case Some(t) => Some(Strip(t))
  }

  // ---- the ladder ----

  /** The visual a scene ends up with. */
  datatype Visual =
    | StockVideo(url: string, crop: Crop, fit: Fit)
    | AiImage(prompt: string, crop: Crop)
    | Placeholder(r: int, g: int, b: int)

  /** One materialised scene visual: what it shows, its frame size and how
      long it lasts. */
  datatype SceneVisual = SceneVisual(visual: Visual, size: Size, duration: real)

  /** The dark blue-grey frame used when nothing else worked. */
  const DarkPlaceholder: Visual := Placeholder(20, 20, 30)

  /** The AI image step on its own: a clip, or nothing. */
  function AiStep(key: string, env: AiEnv, target: Size, d: real): (v: Option<SceneVisual>)
    requires Positive(target)
    ensures v.Some? ==> key != "" && v.value.visual.AiImage? && v.value.size == target && v.value.duration == d
    ensures v.Some? <==> ImagePrompt(key, env).Some? && env.image(ImagePrompt(key, env).value).ImageDecoded?
                         && Positive(env.image(ImagePrompt(key, env).value).size)
    ensures v.Some? ==> v.value.visual == AiImage(ImagePrompt(key, env).value,
                                                  CoverCrop(env.image(ImagePrompt(key, env).value).size, target))
  {
    match ImagePrompt(key, env)
    case None => None
    case Some(p) =>
      match env.image(p)
      case ImageDecoded(sz) =>
        if Positive(sz) then Some(SceneVisual(AiImage(p, CoverCrop(sz, target)), target, d)) else None
      case ImageFailed => None
  }

  /** The fallback ladder over the shuffled candidates. */
  function Resolve(shuffled: seq<string>, fetch: string -> StockOutcome,
                   geminiKey: string, ai: AiEnv, target: Size, d: real): (v: SceneVisual)
    requires Positive(target)
    ensures v.size == target && v.duration == d
  {
    var k := FirstUsable(shuffled, fetch);
    if k < |shuffled| then
      var o := fetch(shuffled[k]);
      SceneVisual(StockVideo(shuffled[k], CoverCrop(o.size, target), FitTo(o.duration, d)), target, d)
    else match AiStep(geminiKey, ai, target, d)
      case Some(v) => v
      case None => SceneVisual(DarkPlaceholder, target, d)
  }

  /** The ladder's order: the first usable candidate wins; the AI image is
      only reached when no candidate worked and a key is set; otherwise the
      placeholder is used. */
  lemma LadderOrder(shuffled: seq<string>, fetch: string -> StockOutcome,
                    geminiKey: string, ai: AiEnv, target: Size, d: real)
    requires Positive(target)
    ensures var v := Resolve(shuffled, fetch, geminiKey, ai, target, d);
            var k := FirstUsable(shuffled, fetch);
            && (v.visual.StockVideo? <==> k < |shuffled|)
            && (v.visual.StockVideo? ==>
                  && v.visual.url == shuffled[k]
                  && Usable(fetch(shuffled[k]))
                  && forall j :: 0 <= j < k ==> !Usable(fetch(shuffled[j])))
            && (v.visual.AiImage? ==> k == |shuffled| && geminiKey != "")
            && (v.visual.Placeholder? <==> k == |shuffled| && AiStep(geminiKey, ai, target, d).None?)
            && (v.visual.Placeholder? ==> v.visual == DarkPlaceholder)
  {
  }

  /** Some candidate downloads and decodes to a usable clip. */
  ghost predicate StockAvailable(cands: seq<string>, fetch: string -> StockOutcome) {
    exists u :: u in cands && Usable(fetch(u))
  }

  /** The ladder seen from the unshuffled candidates: stock is used exactly
      when some candidate is usable, whatever the shuffle, and the clip is
      one of them; otherwise the AI image when that step succeeds, and the
      placeholder when it does not. */
  lemma ShuffledLadder(cands: seq<string>, draw: nat -> nat, fetch: string -> StockOutcome,
                       geminiKey: string, ai: AiEnv, target: Size, d: real)
    requires Positive(target)
    ensures var v := Resolve(Shuffle(cands, draw), fetch, geminiKey, ai, target, d);
            var ok := StockAvailable(cands, fetch);
            && (v.visual.StockVideo? <==> ok)
            && (v.visual.StockVideo? ==> v.visual.url in cands && Usable(fetch(v.visual.url)))
            && (v.visual.AiImage? <==> !ok && AiStep(geminiKey, ai, target, d).Some?)
            && (v.visual.AiImage? ==> v == AiStep(geminiKey, ai, target, d).value)
            && (v.visual.Placeholder? <==> !ok && AiStep(geminiKey, ai, target, d).None?)
            && (v.visual.Placeholder? ==> v.visual == DarkPlaceholder)
  {
    var sh := Shuffle(cands, draw);
    LadderOrder(sh, fetch, geminiKey, ai, target, d);
    UsableSomewhere(sh, fetch);
    forall u
      ensures u in sh <==> u in cands
    {
      assert u in sh <==> u in multiset(sh);
      assert u in cands <==> u in multiset(cands);
    }
  }

  /** A chosen stock clip is cropped inside its resized frame and fitted to
      the scene by looping exactly when it is too short. */
  lemma StockClipShape(shuffled: seq<string>, fetch: string -> StockOutcome,
                       geminiKey: string, ai: AiEnv, target: Size, d: real)
    requires Positive(target)
    requires Resolve(shuffled, fetch, geminiKey, ai, target, d).visual.StockVideo?
    ensures var v := Resolve(shuffled, fetch, geminiKey, ai, target, d).visual;
            var o := fetch(v.url);
            && o.Decoded?
            && v.crop.out == target && v.crop.x1 >= 0.0 && v.crop.x1 + target.w <= v.crop.resized.w
            && target.h <= v.crop.resized.h
            && (v.fit == Looped <==> o.duration < d)
  {
    var k := FirstUsable(shuffled, fetch);
    CoverCropFits(fetch(shuffled[k]).size, target);
  }

  /** With no keys at all there are no candidates and no AI step: the scene
      is the placeholder at the target size for the scene's duration. */
  lemma NoKeysPlaceholder(pexels: Option<seq<seq<VideoFile>>>, pixabay: Option<seq<PixabayHit>>,
                          draw: nat -> nat, fetch: string -> StockOutcome, ai: AiEnv, target: Size, d: real)
    requires Positive(target)
    ensures Resolve(Shuffle(Candidates("", pexels, "", pixabay), draw), fetch, "", ai, target, d)
            == SceneVisual(DarkPlaceholder, target, d)
  {
  }
}

=== FILE: styling.dfy ===
/** `get_smart_styling`: a language model proposes the caption colour,
    position and font mood as JSON; every failure falls back to a fixed
    default. The endpoint sanitising rule shared with the image fallback is
    here too. */
module Styling {
  import opened Wrappers
  import opened Text

  /** A parsed JSON value. Only strings are inspected; the other scalars are
      distinguished from containers because Python can hash the former but
      not the latter. */
  datatype Json =
    | JString(str: string)
    | JNumber
    | JBool
    | JNull
    | JArray
    | JObject(fields: map<string, Json>)

  /** The style dictionary returned to the caller. */
  type Style = map<string, Json>

  const DefaultColor := "#FFD700"

  const DefaultStyle: Style :=
    map["color" := JString(DefaultColor), "position" := JString("center"), "font" := JString("Arial")]

  /** The font table for `font_mood`. */
  const FontMap: map<string, string> :=
    map["bold" := "Arial", "playful" := "Comic Sans MS", "elegant" := "Georgia"]

  /** What one `generate_content` call gave: it raised, returned a falsy
      response, or returned a response whose `.text` may itself raise
      (`None`). */
  datatype ModelReply = Raised | Falsy | Reply(text: Option<string>)

  /** The models tried, in order. */
  const Models: seq<string> := ["gemini-2.0-flash", "gemini-1.5-flash", "gemini-pro"]

  /** The loop over `models_to_try`: index of the first model that returned a
      truthy response, or `|models|` when none did. */
  function FirstAnswer(models: seq<string>, ask: string -> ModelReply): (k: nat)
    ensures k <= |models|
    ensures k < |models| ==> ask(models[k]).Reply?
    ensures forall j :: 0 <= j < k ==> !ask(models[j]).Reply?
  {
    if models == [] then 0
    else if ask(models[0]).Reply? then 0
    else 1 + FirstAnswer(models[1..], ask)
  }

  /** `response.text.replace("```json", "").replace("```", "").strip()`. */
  function CleanFences(t: string): (r: string)
    ensures !Contains(r, Fence)
    ensures IsStripped(r)
    ensures NoBacktick(t) ==> r == Strip(t)
  {
    var u := RemoveAll(RemoveAll(t, "```json"), Fence);
    RemoveFencesComplete(RemoveAll(t, "```json"));
    StripKeepsAbsence(u, Fence);
    PlainReplyKept(t);
    Strip(u)
  }

  predicate NoBacktick(t: string) {
    forall i :: 0 <= i < |t| ==> t[i] != '`'
  }

  /** Text without backticks holds no pattern starting with one. */
  lemma BacktickFreeKept(t: string, p: string)
    requires NoBacktick(t) && |p| > 0 && p[0] == '`'
    ensures RemoveAll(t, p) == t
  {
    RemoveAllSkip(t, [], p);
    assert t + [] == t;
  }

  /** Neither deletion touches a reply without backticks. */
  lemma PlainReplyKept(t: string)
    ensures NoBacktick(t) ==> RemoveAll(RemoveAll(t, "```json"), Fence) == t
  {
    if NoBacktick(t) {
      BacktickFreeKept(t, "```json");
      BacktickFreeKept(t, Fence);
    }
  }

  /** A reply wrapped in a ```json fence is cleaned down to its stripped
      body. */
  lemma FencedReply(b: string)
    requires NoBacktick(b)
    ensures CleanFences("```json" + b + "```") == Strip(b)
  {
    var j := "```json";
    var t := j + b + Fence;
    assert t[..|j|] == j && t[|j|..] == b + Fence;
    assert RemoveAll(t, j) == RemoveAll(b + Fence, j);
    RemoveAllSkip(b, Fence, j);
    assert RemoveAll(Fence, j) == Fence;
    RemoveAllSkip(b, Fence, Fence);
    assert Fence[..3] == Fence && Fence[3..] == [];
    assert RemoveAll(Fence, Fence) == [];
    assert b + [] == b;
  }

  /** `font_map.get(styling.get("font_mood", "bold"), "Arial")`, or `None`
      when the mood is a list or object (unhashable: the lookup raises). */
  function FontFor(fields: map<string, Json>): (f: Option<string>)
    ensures f.Some? ==> f.value in FontMap.Values
  {
    assert FontMap["bold"] == "Arial";
    var mood := if "font_mood" in fields then fields["font_mood"] else JString("bold");
    match mood
    case JString(m) => Some(if m in FontMap then FontMap[m] else "Arial")
    case JArray => None
    case JObject(_) => None
    case _ => Some("Arial")
  }

  /** Why the default style was used. */
  datatype Fallback = NoKey | NoResponse | Failed

  /** The style, or the reason the fixed default stands in for it. */
  datatype Styled = Derived(style: Style) | Defaulted(why: Fallback) {
    function Value(): Style {
      match this
      case Derived(st) => st
      case Defaulted(_) => DefaultStyle
    }
  }

  /** The oracle results one styling call depends on: whether
      `genai.configure` raised, each model's reply, and `json.loads`. */
  datatype StylingEnv = StylingEnv(
    configureRaises: bool,
    ask: string -> ModelReply,
    parse: string -> Option<Json>)

  function SmartStyling(key: string, env: StylingEnv): (r: Styled)
    ensures key == "" <==> r == Defaulted(NoKey)
    ensures key != "" && env.configureRaises ==> r == Defaulted(Failed)
    ensures r.Derived? ==> "font" in r.style && r.style["font"] in JStrings(FontMap.Values)
  {
    if key == "" then Defaulted(NoKey)
    else if env.configureRaises then Defaulted(Failed)
    else
      var k := FirstAnswer(Models, env.ask);
      if k == |Models| then Defaulted(NoResponse)
      else match env.ask(Models[k]).text
        case None => Defaulted(Failed)
        case Some(t) =>
          match env.parse(CleanFences(t))
          case Some(JObject(fields)) =>
            (match FontFor(fields)
             case Some(f) => Derived(fields["font" := JString(f)])
             case None => Defaulted(Failed))
          case _ => Defaulted(Failed)
  }

  function JStrings(ss: set<string>): set<Json> {
    set s | s in ss :: JString(s)
  }

  /** When every model fails or answers falsy, the default is used. */
  lemma SilentModelsGiveDefault(key: string, env: StylingEnv)
    requires key != "" && !env.configureRaises
    requires forall j :: 0 <= j < |Models| ==> !env.ask(Models[j]).Reply?
    ensures SmartStyling(key, env) == Defaulted(NoResponse)
    ensures SmartStyling(key, env).Value() == DefaultStyle
  {
  }

  /** A derived style is the model's JSON object with `font` set from the
      mood, every other key kept; the reply text was fence-free once
      cleaned. */
  lemma DerivedStyle(key: string, env: StylingEnv)
    requires SmartStyling(key, env).Derived?
    ensures var k := FirstAnswer(Models, env.ask);
            && key != "" && !env.configureRaises && k < |Models|
            && env.ask(Models[k]).text.Some?
            && var cleaned := CleanFences(env.ask(Models[k]).text.value);
               && !Contains(cleaned, Fence)
               && env.parse(cleaned).Some? && env.parse(cleaned).value.JObject?
               && var fields := env.parse(cleaned).value.fields;
                  && FontFor(fields).Some?
                  && SmartStyling(key, env).style.Keys == fields.Keys + {"font"}
                  && SmartStyling(key, env).style["font"] == JString(FontFor(fields).value)
                  && forall x :: x in fields && x != "font" ==> SmartStyling(key, env).style[x] == fields[x]
  {
  }

  /** The other direction: a reply that parses to an object whose mood is
      hashable always yields that object with `font` set from the mood. */
  lemma StyleFromReply(key: string, env: StylingEnv, fields: map<string, Json>)
    requires key != "" && !env.configureRaises
    requires FirstAnswer(Models, env.ask) < |Models|
    requires env.ask(Models[FirstAnswer(Models, env.ask)]).text.Some?
    requires env.parse(CleanFences(env.ask(Models[FirstAnswer(Models, env.ask)]).text.value)) == Some(JObject(fields))
    requires FontFor(fields).Some?
    ensures SmartStyling(key, env).Derived?
    ensures SmartStyling(key, env).style == fields["font" := JString(FontFor(fields).value)]
  {
  }

  /** A model answered but its reply is unusable: `.text` raised, the
      cleaned text is not a JSON object, or the mood is unhashable. The
      default style is used. */
  lemma UnusableReplyDefaults(key: string, env: StylingEnv)
    requires key != "" && !env.configureRaises
    requires FirstAnswer(Models, env.ask) < |Models|
    requires var text := env.ask(Models[FirstAnswer(Models, env.ask)]).text;
             || text.None?
             || !(env.parse(CleanFences(text.value)).Some? && env.parse(CleanFences(text.value)).value.JObject?)
             || FontFor(env.parse(CleanFences(text.value)).value.fields).None?
    ensures SmartStyling(key, env) == Defaulted(Failed)
    ensures SmartStyling(key, env).Value() == DefaultStyle
  {
  }

  /** The font chosen for each mood: the table entry for a known mood, and
      Arial for a missing, unknown or non-string hashable mood. */
  lemma FontForMood(fields: map<string, Json>)
    ensures "font_mood" !in fields ==> FontFor(fields) == Some("Arial")
    ensures "font_mood" in fields && fields["font_mood"] == JString("playful") ==> FontFor(fields) == Some("Comic Sans MS")
    ensures "font_mood" in fields && fields["font_mood"] == JString("elegant") ==> FontFor(fields) == Some("Georgia")
    ensures "font_mood" in fields && fields["font_mood"].JString? && fields["font_mood"].str !in FontMap
            ==> FontFor(fields) == Some("Arial")
    ensures "font_mood" in fields && (fields["font_mood"].JNumber? || fields["font_mood"].JBool? || fields["font_mood"].JNull?)
            ==> FontFor(fields) == Some("Arial")
    ensures "font_mood" in fields && fields["font_mood"] == JString("bold") ==> FontFor(fields) == Some("Arial")
    ensures "font_mood" in fields && (fields["font_mood"].JArray? || fields["font_mood"].JObject?) ==> FontFor(fields).None?
  {
  }

  /** The pieces `urlparse` returns that the endpoint rule uses. */
  datatype UrlParts = UrlParts(scheme: string, netloc: string)

  /** An endpoint naming a model path on googleapis.com is cut back to
      `scheme://netloc`; any other endpoint is kept. */
  function SanitizeEndpoint(ep: string, urlparse: string -> UrlParts): (r: string)
    ensures !(Contains(ep, "googleapis.com") && Contains(ep, "/models/")) ==> r == ep
    ensures Contains(ep, "googleapis.com") && Contains(ep, "/models/") ==> r == urlparse(ep).scheme + "://" + urlparse(ep).netloc
  {
    if Contains(ep, "googleapis.com") && Contains(ep, "/models/") then
      urlparse(ep).scheme + "://" + urlparse(ep).netloc
    else ep
  }

  predicate NoSlash(s: string) {
    forall i :: 0 <= i < |s| ==> s[i] != '/'
  }

  /** In `scheme://netloc` the only slashes are the two after the scheme. */
  lemma SlashPositions(scheme: string, netloc: string, j: int)
    requires NoSlash(scheme) && NoSlash(netloc)
    requires 0 <= j < |scheme| + 3 + |netloc|
    ensures (scheme + "://" + netloc)[j] == '/' <==> j == |scheme| + 1 || j == |scheme| + 2
  {
    var r := scheme + "://" + netloc;
    var n := |scheme|;
    if j < n {
      assert r[j] == scheme[j];
    } else if j >= n + 3 {
      assert r[j] == netloc[j - n - 3];
    }
  }

  /** `scheme://netloc` never holds "/models/": its only slashes are
      adjacent, and "/models/" has two slashes seven apart. */
  lemma NoModelsPath(scheme: string, netloc: string)
    requires NoSlash(scheme) && NoSlash(netloc)
    ensures !Contains(scheme + "://" + netloc, "/models/")
  {
    var r := scheme + "://" + netloc;
    forall i | 0 <= i <= |r| - 8
      ensures !OccursAt(r, "/models/", i)
    {
      SlashPositions(scheme, netloc, i);
      SlashPositions(scheme, netloc, i + 7);
      ModelsPathSlashes(r, i);
    }
  }

  /** "/models/" starts and ends with a slash. */
  lemma ModelsPathSlashes(r: string, i: int)
    requires 0 <= i <= |r| - 8
    ensures OccursAt(r, "/models/", i) ==> r[i] == '/' && r[i + 7] == '/'
  {
    assert r[i] == r[i..i + 8][0] && r[i + 7] == r[i..i + 8][7];
  }

  /** Sanitising twice is sanitising once. `generate_video` stores the
      sanitised endpoint back into its parameter, so later scenes and the
      caption styling sanitise it again; this shows nothing changes. */
  lemma SanitizeIdempotent(ep: string, urlparse: string -> UrlParts)
    requires NoSlash(urlparse(ep).scheme) && NoSlash(urlparse(ep).netloc)
    ensures SanitizeEndpoint(SanitizeEndpoint(ep, urlparse), urlparse) == SanitizeEndpoint(ep, urlparse)
  {
    if Contains(ep, "googleapis.com") && Contains(ep, "/models/") {
      NoModelsPath(urlparse(ep).scheme, urlparse(ep).netloc);
    }
  }
}

=== FILE: text.dfy ===
/** String helpers with Python's semantics: `in` on strings, `str.strip()`,
    `str.replace(p, "")` and ASCII `str.lower()`. */
module Text {

  /** The characters for which Python's `str.isspace()` holds, which is the
      set `str.strip()` removes when called without arguments. */
  predicate IsSpace(c: char) {
    || c == ' '
    || '\t' <= c <= '\r'
    || '\U{1C}' <= c <= '\U{1F}'
    || c == '\U{85}' || c == '\U{A0}' || c == '\U{1680}'
    || '\U{2000}' <= c <= '\U{200A}'
    || c == '\U{2028}' || c == '\U{2029}' || c == '\U{202F}'
    || c == '\U{205F}' || c == '\U{3000}'
  }

  /** Printable ASCII other than the space is not whitespace. */
  lemma VisibleAsciiNotSpace(c: char)
    requires '!' <= c <= '~'
    ensures !IsSpace(c)
  {
  }

  predicate AllSpace(s: string) {
    forall i :: 0 <= i < |s| ==> IsSpace(s[i])
  }

  lemma AllSpaceSlice(s: string, a: nat, b: nat)
    requires AllSpace(s) && a <= b <= |s|
    ensures AllSpace(s[a..b])
  {
    forall i | 0 <= i < b - a
      ensures IsSpace(s[a..b][i])
    {
      assert s[a..b][i] == s[a + i];
    }
  }

  /** `p` occurs in `s` starting at index `i`. */
  predicate OccursAt(s: string, p: string, i: int) {
    0 <= i && i + |p| <= |s| && s[i..i + |p|] == p
  }

  /** Python's `p in s` for strings. */
  predicate Contains(s: string, p: string) {
    exists i | 0 <= i <= |s| - |p| :: OccursAt(s, p, i)
  }

  /** A string with no leading and no trailing whitespace. */
  predicate IsStripped(s: string) {
    |s| == 0 || (!IsSpace(s[0]) && !IsSpace(s[|s| - 1]))
  }

  /** The first index at or after `i` that does not hold whitespace. */
  function SkipSpaces(s: string, i: nat): (j: nat)
    requires i <= |s|
    ensures i <= j <= |s|
    ensures forall k :: i <= k < j ==> IsSpace(s[k])
    ensures j < |s| ==> !IsSpace(s[j])
    decreases |s| - i
  {
    if i < |s| && IsSpace(s[i]) then SkipSpaces(s, i + 1) else i
  }

  /** Scanning back from `j` towards `lo`, the index just past the last
      character that is not whitespace (or `lo`). */
  function SkipSpacesBack(s: string, lo: nat, j: nat): (k: nat)
    requires lo <= j <= |s|
    ensures lo <= k <= j
    ensures forall m :: k <= m < j ==> IsSpace(s[m])
    ensures k > lo ==> !IsSpace(s[k - 1])
    decreases j
  {
    if j > lo && IsSpace(s[j - 1]) then SkipSpacesBack(s, lo, j - 1) else j
  }

  /** Number of leading whitespace characters. */
  function LeadSpaces(s: string): (n: nat)
    ensures n <= |s|
    ensures forall k :: 0 <= k < n ==> IsSpace(s[k])
    ensures n < |s| ==> !IsSpace(s[n])
  {
    SkipSpaces(s, 0)
  }

  /** Python's `s.strip()`: the longest slice of `s` that neither starts nor
      ends with whitespace, obtained by dropping only whitespace. */
  function Strip(s: string): (r: string)
    ensures IsStripped(r)
    ensures LeadSpaces(s) + |r| <= |s|
    ensures r == s[LeadSpaces(s)..LeadSpaces(s) + |r|]
    ensures forall k :: 0 <= k < LeadSpaces(s) ==> IsSpace(s[k])
    ensures forall k :: LeadSpaces(s) + |r| <= k < |s| ==> IsSpace(s[k])
    ensures r == [] <==> AllSpace(s)
  {
    var a := LeadSpaces(s);
    var e := SkipSpacesBack(s, a, |s|);
    var r := s[a..e];
    if a < e then
      assert r[0] == s[a] && r[|r| - 1] == s[e - 1];
      r
    else
      r
  }

  /** Stripping a string that has no surrounding whitespace changes nothing. */
  lemma StripStripped(s: string)
    requires IsStripped(s)
    ensures Strip(s) == s
  {
    if s != [] {
      assert LeadSpaces(s) == 0;
      assert SkipSpacesBack(s, 0, |s|) == |s|;
    }
  }

  /** Stripping keeps a contiguous slice, so it cannot create an occurrence
      of any pattern. */
  lemma StripKeepsAbsence(s: string, p: string)
    requires !Contains(s, p)
    ensures !Contains(Strip(s), p)
  {
    var r := Strip(s);
    var a := LeadSpaces(s);
    forall i | 0 <= i <= |r| - |p|
      ensures !OccursAt(r, p, i)
    {
      OccursInSlice(s, p, a, a + |r|, i);
    }
  }

  /** An occurrence inside a slice is an occurrence in the whole string. */
  lemma OccursInSlice(s: string, p: string, a: nat, e: nat, i: nat)
    requires a <= e <= |s|
    ensures OccursAt(s[a..e], p, i) ==> OccursAt(s, p, a + i)
  {
    if i + |p| <= e - a {
      var u, v := s[a..e][i..i + |p|], s[a + i..a + i + |p|];
      assert forall k :: 0 <= k < |p| ==> u[k] == v[k];
      assert u == v;
    }
  }

  /** Python's `s.replace(p, "")`: occurrences of `p` found left to right,
      without overlap, are deleted. */
  function RemoveAll(s: string, p: string): (r: string)
    requires |p| > 0
    ensures |r| <= |s|
    decreases |s|
  {
    if |s| < |p| then s
    else if s[..|p|] == p then RemoveAll(s[|p|..], p)
    else [s[0]] + RemoveAll(s[1..], p)
  }

  /** A prefix that never holds the pattern's first character passes
      through the deletion untouched. */
  lemma {:induction false} RemoveAllSkip(x: string, y: string, p: string)
    requires |p| > 0
    requires forall i :: 0 <= i < |x| ==> x[i] != p[0]
    ensures RemoveAll(x + y, p) == x + RemoveAll(y, p)
    decreases |x|
  {
    if x == [] {
      assert x + y == y;
    } else if |x + y| < |p| {
      assert RemoveAll(y, p) == y;
    } else {
      assert (x + y)[..|p|][0] == x[0];
      assert (x + y)[1..] == x[1..] + y;
      RemoveAllSkip(x[1..], y, p);
      assert x == [x[0]] + x[1..];
    }
  }

  /** A markdown code fence. */
  const Fence := "```"

  /** Number of leading backticks. */
  function LeadTicks(s: string): (n: nat)
    ensures n <= |s|
    ensures forall i :: 0 <= i < n ==> s[i] == '`'
    ensures n < |s| ==> s[n] != '`'
  {
    if |s| > 0 && s[0] == '`' then 1 + LeadTicks(s[1..]) else 0
  }

  /** Three leading backticks are exactly a fence at the front. */
  lemma FenceAtFront(s: string)
    ensures OccursAt(s, Fence, 0) <==> LeadTicks(s) >= 3
  {
    if LeadTicks(s) >= 3 {
      assert s[..3] == Fence;
    }
    if OccursAt(s, Fence, 0) {
      assert s[0] == '`' && s[1..][0] == '`' && s[1..][1..][0] == '`';
    }
  }

  /** Dropping `k` leading backticks lowers the count by `k`. */
  lemma {:induction false} LeadTicksDrop(s: string, k: nat)
    requires k <= LeadTicks(s)
    ensures LeadTicks(s[k..]) == LeadTicks(s) - k
    decreases k
  {
    if k > 0 {
      LeadTicksDrop(s[1..], k - 1);
      assert s[1..][k - 1..] == s[k..];
    }
  }

  /** Deleting fences left to right leaves each run of `k` backticks with
      `k % 3` of them; in particular at the front. */
  lemma {:induction false} RemoveFencesLeadTicks(s: string)
    ensures LeadTicks(RemoveAll(s, Fence)) == LeadTicks(s) % 3
    decreases |s|
  {
    FenceAtFront(s);
    if |s| < 3 {
    } else if s[..3] == Fence {
      RemoveFencesLeadTicks(s[3..]);
      FenceStep(s);
    } else {
      RemoveFencesLeadTicks(s[1..]);
      CharStep(s);
    }
  }

  /** The inductive step past a fence at the front. */
  lemma FenceStep(s: string)
    requires |s| >= 3 && s[..3] == Fence
    requires LeadTicks(RemoveAll(s[3..], Fence)) == LeadTicks(s[3..]) % 3
    ensures LeadTicks(RemoveAll(s, Fence)) == LeadTicks(s) % 3
  {
    assert |Fence| == 3;
    assert RemoveAll(s, Fence) == RemoveAll(s[3..], Fence);
    FenceAtFront(s);
    LeadTicksDrop(s, 3);
    DropThree(LeadTicks(s));
  }

  lemma DropThree(n: int)
    requires n >= 3
    ensures (n - 3) % 3 == n % 3
  {
  }

  lemma SmallMod(n: nat)
    requires n < 3
    ensures n % 3 == n
  {
  }

  /** The inductive step past a single character that starts no fence. */
  lemma CharStep(s: string)
    requires |s| >= 3 && s[..3] != Fence
    requires LeadTicks(RemoveAll(s[1..], Fence)) == LeadTicks(s[1..]) % 3
    ensures LeadTicks(RemoveAll(s, Fence)) == LeadTicks(s) % 3
  {
    assert |Fence| == 3;
    FenceAtFront(s);
    var t := RemoveAll(s[1..], Fence);
    var r := RemoveAll(s, Fence);
    assert r == [s[0]] + t;
    assert r[1..] == t;
    assert !OccursAt(s, Fence, 0);
    var n := LeadTicks(s);
    assert n < 3;
    SmallMod(n);
    if s[0] == '`' {
      assert n == 1 + LeadTicks(s[1..]);
      SmallMod(LeadTicks(s[1..]));
      assert LeadTicks(t) == LeadTicks(s[1..]);
      assert LeadTicks(r) == 1 + LeadTicks(t);
    } else {
      assert n == 0;
      assert LeadTicks(r) == 0;
    }

  }

  /** After `replace("```", "")` no fence is left in the text, whatever the
      input (runs of backticks are reduced below three). */
  lemma {:induction false} RemoveFencesComplete(s: string)
    ensures !Contains(RemoveAll(s, Fence), Fence)
    decreases |s|
  {
    var r := RemoveAll(s, Fence);
    if |s| < 3 {
    } else if s[..3] == Fence {
      RemoveFencesComplete(s[3..]);
    } else {
      var t := RemoveAll(s[1..], Fence);
      RemoveFencesComplete(s[1..]);
      assert r == [s[0]] + t;
      forall i | 0 <= i <= |r| - 3
        ensures !OccursAt(r, Fence, i)
      {
        if i == 0 {
          FenceAtFront(r);
          FenceAtFront(s);
          RemoveFencesLeadTicks(s);
        } else {
          assert t[i - 1..i - 1 + 3] == r[i..i + 3];
          assert !OccursAt(t, Fence, i - 1);
        }
      }
    }
  }

  /** Python's `str.lower()` restricted to ASCII letters. */
  function Lower(s: string): (r: string)
    ensures |r| == |s|
    ensures forall i :: 0 <= i < |s| ==> r[i] == LowerChar(s[i])
  {
    seq(|s|, i requires 0 <= i < |s| => LowerChar(s[i]))
  }

  function LowerChar(c: char): char {
    if 'A' <= c <= 'Z' then (c as int - 'A' as int + 'a' as int) as char else c
  }
}

=== FILE: wrappers.dfy ===
/** Failure-compatible wrappers shared by every module of the model. */
module Wrappers {

  /** A value that may be absent: Python's `None` versus a present value. */
  datatype Option<+T> = None | Some(value: T) {

    /** The carried value, or `default` when absent (Python's `x if x is not None else default`). */
    function GetOr(default: T): T {
      match this
      case Some(v) => v
      case None => default
    }
  }

  /** The outcome of a step that either yields a value or raises. */
  datatype Result<+R, +E> = Ok(value: R) | Err(error: E)
}
